=== FILE: README.md ===
# nstimes in Dafny

nstimes is a command-line tool that asks the Dutch railways' trip service
for the next trains between two stations and prints train type, platform,
minutes left and departure time. This project models its core as pure
Dafny functions and proves what that core promises:

- the departure value (`nstimes/departure.py`, and the older copy in
  `nstimes/types/departure.py`): an absent actual time defaults to the
  planned one; the delay and the minutes left are seconds divided by 60 and
  truncated toward zero; the minutes left keep the reference's wall clock
  and swap in the departure's UTC offset;
- `get_departures`: station lookup, one request, and one departure per
  trip built from its first leg, with the track falling back from actual
  to planned to `?`;
- the `journey` command of `nstimes/main.py`: station-name completion, the
  per-trip track, time, delay marker and skip rule, and what is printed
  before a trip raises;
- the two printers of `nstimes/printers.py` as buffers, and `get_printer`;
- the markup wrappers of `nstimes/styles.py`;
- `convert_to_rfc3339` and `get_headers` from `nstimes/utils.py`;
- `increment_patch_version` and the `--version` digit check in
  `bump_version.py`.

An instant is `Instant(wall, offset)` in whole seconds: `wall` counts the
local wall clock from 0001-01-01 (the proleptic Gregorian ordinal, as in
Python's `datetime`), `offset` is the UTC offset, and the absolute instant
is `wall - offset`. `DateTimes.MinutesOf` is Python's `int(seconds / 60)`:
division truncated toward zero, unlike Dafny's Euclidean `/`.

The JSON answer of the trip service is a tree of records whose keys may be
absent (`Option` fields, module `Trips`). On JSON whose values have the
expected types, every Python exception the core can raise, other than the
printers' AttributeError (see "## Left out"), is a value of `Errors.Error`,
and operations return `Result`.
The HTTP request, the station file and the clock are parameters: a
`TripService` function, a `map<string, string>` of station names to codes,
and an integer "now".

Files: `wrappers.dfy` (Option, Result, Error), `text.dfy` (decimal
rendering and parsing, padding, split/join), `styles.dfy`, `datetimes.dfy`
(calendar, `strptime` of the service's timestamps, `HH:MM`), `utils.dfy`,
`trips.dfy`, `departure.dfy`, `legacy_departure.dfy`, `journey.dfy`,
`printers.dfy`, `bump_version.dfy`.

Notes on the code:

- The delay and the minutes left truncate toward zero rather than floor,
  so a departure 59 seconds in the past still has 0 minutes left.
- `get_departures` neither drops departed trains nor cuts the list to a
  maximum length: it returns one departure per trip.
- There is no pixel-clock printer: `get_printer` knows `ascii` and `table`
  only, and any other choice exits with code 1.

## Model

| member | source | states |
|---|---|---|
| DateTimes.MinutesOf | nstimes/departure.py:26-29 | whole minutes of a seconds count, truncated toward zero: the remainder has the sign of the input and is under a minute |
| DateTimes.MinutesOfWhole | nstimes/departure.py:26-29 | an exact number of minutes converts to itself, for either sign |
| DateTimes.MinutesOfNegate | nstimes/departure.py:26-29 | truncation is symmetric: negating the seconds negates the minutes |
| DateTimes.MinutesOfZero | nstimes/departure.py:26-29 | the result is 0 exactly for differences strictly inside one minute either way |
| DateTimes.MinutesOfNegative | nstimes/main.py:85-88 | the result is negative exactly when at least 60 seconds have passed |
| DateTimes.MinutesOfExamples | nstimes/departure.py:26-29 | +59 s and -59 s give 0, and -61 s gives -1, where Euclidean division would give -2 |
| DateTimes.DaysInMonth | nstimes/utils.py:41 | every month has 28 to 31 days, and 29 only for February of a leap year |
| DateTimes.Ordinal | nstimes/departure.py:26-36 | `date.toordinal()`, which `datetime` subtraction differences; OrdinalEpoch and OrdinalNextDay state that it starts at 1 and has no gaps |
| DateTimes.OrdinalEpoch | nstimes/departure.py:26-36 | 0001-01-01 is day 1, as for `date.toordinal()` |
| DateTimes.DaysBeforeYearStep | nstimes/departure.py:26-36 | a leap year has 366 days and any other year 365, under the Gregorian rule of 4, 100 and 400 |
| DateTimes.DaysBeforeMonthStep | nstimes/departure.py:26-36 | the days before month m + 1 are those before m plus the length of m, and the twelve months sum to the year's length |
| DateTimes.OrdinalNextDay | nstimes/departure.py:26-36 | every valid date but 9999-12-31 is followed by the next calendar day (next day, 1st of the next month, or 1 January), which is valid, has the next ordinal, and whose midnight is one second after 23:59:59 of the day before |
| DateTimes.ClockText | nstimes/main.py:81 | `%H:%M` is two digits, a colon and two digits that read back as the hour and minute of the wall clock |
| DateTimes.ClockOfWall | nstimes/main.py:81 | the hour and minute of a valid date and time are the ones it was built from |
| DateTimes.ParseTimestamp | nstimes/departure.py:58-66 | `strptime` with `%Y-%m-%dT%H:%M:%S%z` accepts a text exactly when it has the timestamp shape, its fields name a date that exists and a time of day, and its offset parses; the result is the wall clock of those fields in that offset, its `HH:MM` is the text's, and the offset is whole minutes under a day |
| DateTimes.ParseOffsetText | nstimes/departure.py:10 | every whole-minute offset under a day, written as `+HHMM` or `-HHMM`, parses back |
| DateTimes.ParseTimestampText | nstimes/departure.py:10 | every valid date, time and offset, written in the service's format, parses back to that wall clock and offset |
| Utils.GetHeaders | nstimes/utils.py:21-22 | exactly the two keys `Cache-Control` = `no-cache` and `Ocp-Apim-Subscription-Key` = the token |
| Utils.ConvertToRfc3339 | nstimes/utils.py:40-43 | the result is `YYYY-MM-DDTHH:MM:00`, 19 characters with no UTC offset; a refused input raises ValueError |
| Utils.ConvertAcceptsExactlyValid | nstimes/utils.py:40-43 | the conversion succeeds exactly on `DD-MM-YYYY` plus `HH:MM` naming a real calendar day and a time of day |
| Utils.ConvertReadBack | nstimes/utils.py:40-43 | year, month, day, hour and minute read back from the output are the input's fields, and seconds are `00` |
| Utils.ConvertOfFields | nstimes/utils.py:40-43 | zero-padded fields convert exactly when they name a real date and time, and then to the ISO text of the same fields |
| Utils.ConvertRejectsThirtyFirstApril | nstimes/utils.py:40-43 | 31-04 is refused |
| Utils.ConvertRejectsLeapDayOfCommonYear | nstimes/utils.py:40-43 | 29-02 is refused in a common year |
| Utils.ConvertAcceptsLeapDay | nstimes/utils.py:40-43 | 29-02-2024 at 10:00 converts to `2024-02-29T10:00:00` |
| Utils.ConvertRejectsImpossibleTimes | nstimes/utils.py:40-43 | hour 24 and minute 60 are refused |
| Trips.Get | nstimes/departure.py:51-54 | `obj[key]` gives the value when the key is present and raises KeyError naming the key otherwise |
| Trips.FirstLeg | nstimes/departure.py:53 | `legs[0]`: KeyError without legs, IndexError on an empty list, else the first leg |
| Trips.StationCode | nstimes/departure.py:45-46 | a station's code is found exactly when the name is in the mapping, else KeyError on the name |
| Trips.BuildQuery | nstimes/departure.py:44-48 | the query succeeds exactly when both names are known, holds their codes, and the start is looked up first |
| Departures.NewDeparture | nstimes/departure.py:21-24 | the constructor with its default; what it promises is stated by OnTimeByDefault and ActualKept |
| Departures.DelayMinutes | nstimes/departure.py:26-29 | the delay; its meaning is stated by DelayBounds and DelayOfShift |
| Departures.OnTimeByDefault | nstimes/departure.py:21-24 | without an actual time the actual is the planned time and the delay is 0 |
| Departures.ActualKept | nstimes/departure.py:21-24 | a given actual time is kept, and the delay is measured from it |
| Departures.DelayOfShift | nstimes/departure.py:26-29 | actual = planned + k minutes gives delay k, for any integer k |
| Departures.DelayBounds | nstimes/departure.py:26-29 | the delay is the whole minutes between planned and actual, toward zero, with its sign |
| Departures.TimeLeftMinutes | nstimes/departure.py:31-36 | the minutes left depend only on the two wall clocks, truncated toward zero |
| Departures.TimeLeftIgnoresReferenceOffset | nstimes/departure.py:31-36 | two references with the same wall clock and different offsets give the same answer |
| Departures.TimeLeftFromPlanned | nstimes/departure.py:31-36 | measured from the planned time, a departure k minutes late leaves in k minutes |
| Departures.ExampleLateDeparture | nstimes/departure.py:21-36 | planned 10:00, actual 10:05, reference 09:50: 15 minutes left and 5 minutes delay |
| Departures.Strptime | nstimes/departure.py:58-60 | parsing succeeds exactly on the timestamps the format accepts; otherwise ValueError |
| Departures.StrptimeIfPresent | nstimes/departure.py:62-66 | an absent actual time stays absent; a present one is parsed or raises |
| Departures.TrackOf | nstimes/departure.py:56 | the platform label; TrackPreference states its three cases |
| Departures.TrackPreference | nstimes/departure.py:56 | actual track, else planned track, else `?` |
| Departures.LegToDeparture | nstimes/departure.py:53-75 | a departure is built exactly when origin, a parsable planned time, an absent or parsable actual time, product and category code are all there; it has the leg's category code, the preferred track, the parsed planned time, and the parsed actual time or the planned one; otherwise the first missing key is a KeyError and the first refused timestamp a ValueError, in the source's order |
| Departures.TripToDeparture | nstimes/departure.py:52-53 | a trip's departure is its first leg's, with KeyError or IndexError when there is no first leg |
| Departures.OnlyFirstLegCounts | nstimes/departure.py:53 | replacing every leg after the first does not change the departure |
| Departures.MapTrips | nstimes/departure.py:50-77 | one departure per trip in trip order, none dropped; the first trip that raises ends the loop with its error |
| Departures.FetchTrips | nstimes/departure.py:42-51 | both lookups come before the request; the service's failure or a missing `trips` key is the result |
| Departures.UnknownStationBeforeRequest | nstimes/departure.py:42-49 | with an unknown station the result is a failure that does not depend on the service |
| Departures.GetDepartures | nstimes/departure.py:39-77 | on success, exactly one departure per returned trip, in order; a failure is the fetch's error or the first raising trip's |
| LegacyDepartures.TimeLeftAt | nstimes/types/departure.py:21-24 | minutes from now to the actual time, truncated toward zero, whatever offset now is shown in |
| LegacyDepartures.TimeLeftAtAgreesWithReference | nstimes/types/departure.py:21-24 | the older count equals the newer one given now's wall clock in the departure's offset, whatever offset the reference claims |
| LegacyDepartures.DelaySuffix | nstimes/types/departure.py:28 | the delay marker; DelaySuffixMeaning and DelaySuffixEarly state what it shows |
| LegacyDepartures.Describe | nstimes/types/departure.py:26-29 | the `__str__` line; DescribeReadsBack states its layout |
| LegacyDepartures.DelaySuffixMeaning | nstimes/types/departure.py:28 | the marker is empty exactly when the delay is 0; otherwise it is red `+` followed by the delay, which reads back |
| LegacyDepartures.DelaySuffixEarly | nstimes/types/departure.py:28 | an early departure shows `+-N` |
| LegacyDepartures.DescribeReadsBack | nstimes/types/departure.py:26-29 | the line is the fixed head, the planned (not actual) `HH:MM`, the marker and `)`, and each part reads back |
| Journey.CompletionsMembership | nstimes/main.py:32-39 | a name is offered exactly when it is a station name that starts with the prefix |
| Journey.CompletionsAppend | nstimes/main.py:32-39 | completion keeps the mapping's order |
| Journey.CompletionsOfEmpty | nstimes/main.py:32-39 | the empty prefix offers every name |
| Journey.CompleteName | nstimes/main.py:32-39 | the loop returns the names that start with the prefix, in order; all names for the empty prefix |
| Journey.JourneyTrack | nstimes/main.py:62-67 | the track `journey` prints; JourneyTrackAgrees states its cases and its agreement with `get_departures` |
| Journey.JourneyTrackAgrees | nstimes/main.py:62-67 | actual track, else planned track, else "No track!"; it agrees with `get_departures` wherever that does not show `?` |
| Journey.JourneyTiming | nstimes/main.py:69-77 | the actual time with its delay from planned, else the planned time with delay 0, else "No departure time!"; a refused timestamp is a ValueError and an actual time without a planned one a KeyError |
| Journey.JourneyEntryCases | nstimes/main.py:59-79 | a trip yields its line's fields exactly when it has a first leg with an origin, a track, a departure time and a train type; otherwise the error is the first one the code reaches: the `legs` error, KeyError on `origin`, "No track!", the timing's error, KeyError on `product`, KeyError on `categoryCode` |
| Journey.JourneyAgreesWithDepartures | nstimes/main.py:59-79 | for any trip `journey` can print, train type, track, time and delay are those of `get_departures` |
| Journey.DepartureText | nstimes/main.py:81-83 | the time and delay marker; DepartureTextMarker states when the marker appears and that it reads back |
| Journey.DepartureTextMarker | nstimes/main.py:81-83 | the text always starts with the departure's `HH:MM`; the ` +N` marker follows exactly for positive delays, and is `str` of the delay |
| Journey.JourneyLine | nstimes/main.py:59-90 | a trip raises exactly when its fields cannot be read, and then with that error (whose cases JourneyEntryCases lists in the code's order); SkippedIffDeparted states when it is skipped, PrintedLineShape what the line holds |
| Journey.SkippedIffDeparted | nstimes/main.py:85-88 | a trip is skipped exactly when a full minute or more has passed since its departure |
| Journey.PrintedLineShape | nstimes/main.py:78-90 | a printed line is `{train_type} p.{track} in {minutes} min ({dep_string})`: it starts with the first leg's category code and the track, the number before ` min (` reads back as the minutes left, which are not negative, and it ends with ` min (`, the departure's `HH:MM` with its delay marker, and `)` |
| Journey.ShownFromTrips | nstimes/main.py:59-90 | no more lines than trips, and every line is one trip's own line |
| Journey.ShownAllKept | nstimes/main.py:59-90 | when no trip is skipped, line i is trip i's line |
| Journey.PrintTrips | nstimes/main.py:59-90 | no error exactly when no trip raises; otherwise the first raising trip's error, with the lines of the trips before it printed |
| Journey.RunJourney | nstimes/main.py:47-90 | unknown start or end raises KeyError before anything is printed; otherwise the header comes first, then the service's error, a missing `trips`, or the shown lines; when a trip raises, its error ends the run with the lines of the trips before it printed |
| Printers.NewConsole | nstimes/printers.py:30-33 | an empty title and no lines |
| Printers.NewTable | nstimes/printers.py:48-63 | no rows, and the title reads as `None` until one is set |
| Printers.Title | nstimes/printers.py:61-63 | the title a caller reads; NewTable, SetTitle and SetTitleTwice state what it returns |
| Printers.SetTitle | nstimes/printers.py:61-67 | reading the title back gives the value set; the lines or rows are untouched |
| Printers.SetTitleTwice | nstimes/printers.py:65-67 | the last title set wins |
| Printers.PlainLine | nstimes/printers.py:42 | the uncancelled console line; PlainLineLayout states its justification and widths |
| Printers.ConsoleLine | nstimes/printers.py:41-44 | a cancelled line is the plain line in the cancelled style, and the plain line reads back from it |
| Printers.CancelledConsoleLine | nstimes/printers.py:42-44 | the cancelled line is exactly `cancelled` of the line the departure would otherwise have |
| Printers.PlainLineLayout | nstimes/printers.py:42 | train type left-justified and platform and minutes right-justified to widths 3, 3 and 2, never cut; the minutes are `str` of the minutes left |
| Printers.TableRow | nstimes/printers.py:69-85 | every row has five cells |
| Printers.TableRowReadsBack | nstimes/printers.py:69-85 | a cancelled row is the cancelled style on every plain cell; otherwise platform and minutes read back from cyan and the minutes cell ends in ` min` |
| Printers.AddDeparture | nstimes/printers.py:41-45 | one line or row is appended at the end; earlier entries and the title are unchanged |
| Printers.AddAllAppends | nstimes/printers.py:41-45 | after n adds there are n more entries, in insertion order, after the unchanged old ones |
| Printers.GetPrinter | nstimes/printers.py:88-101 | `ascii` gives an empty console printer and `table` an empty table printer whose title reads `None`; anything else exits with code 1 |
| Styles.Red | nstimes/styles.py:1-2 | the text inside fixed bold-red tags: 21 characters longer, and the tags strip back to the text |
| Styles.Cyan | nstimes/styles.py:5-6 | the same for bold cyan, 23 characters longer |
| Styles.Green | nstimes/styles.py:9-10 | the same for bold green, 25 characters longer |
| Styles.Strike | nstimes/styles.py:13-14 | the same for strike, 17 characters longer |
| Styles.Cancelled | nstimes/styles.py:17-18 | `[bold red][strike]` + text + `[/strike][/bold red]`, 38 characters longer |
| Styles.UnwrapWrap | nstimes/styles.py:1-18 | stripping a wrapper's tags recovers the text |
| Styles.WrapUnwrap | nstimes/styles.py:1-18 | a string that strips is the wrapper applied to what it strips to |
| Styles.WrapInjective | nstimes/styles.py:1-18 | each wrapper is injective |
| Styles.UncancelCancelled | nstimes/styles.py:17-18 | `cancelled` is red around strike, and undoing both recovers the text |
| Styles.StyledIntReadsBack | nstimes/styles.py:5-6 | the cyan markup of an integer holds `str` of that integer |
| Text.IntToString | nstimes/main.py:90 | `str(int)`: no `+` and no leading zero, a minus only before a non-zero value; IsIntTextIffRendering states it is the only such text of its value |
| Text.IsIntTextIffRendering | nstimes/main.py:90 | a text is written canonically and read back by `int()` as i exactly when it is `str(i)` |
| Text.CanonicalIsRendering | nstimes/main.py:90 | every canonically written integer text is `str` of its own value |
| BumpVersion.IntOf | bump_version.py:10 | `int(part)` for a sign and digits, else ValueError with CPython's message |
| BumpVersion.ParseVersion | bump_version.py:10 | succeeds exactly on three dot-separated integers; otherwise ValueError |
| BumpVersion.Unpack | bump_version.py:10 | pieces are converted in order and the first that is no integer raises its ValueError; after the conversions, one or two pieces raise "not enough values", and a fourth piece that converts raises "too many values"; success means exactly three integers |
| BumpVersion.VersionText | bump_version.py:11 | the three numbers in decimal joined by dots; ParseVersionText states that it splits into their decimal texts and parses back |
| BumpVersion.ParseVersionText | bump_version.py:10-11 | the rendered version parses back to the same numbers |
| BumpVersion.IncrementPatchVersion | bump_version.py:9-11 | the result parses back to the same major and minor and the patch plus one; a bad version raises the parse's error |
| BumpVersion.IncrementWritesDecimal | bump_version.py:10-11 | for every valid version, each piece of the output is its number in plain decimal, so no leading zero survives |
| BumpVersion.IncrementAcceptsExactlyThree | bump_version.py:10 | exactly three integer parts are accepted, anything else is a ValueError |
| BumpVersion.IncrementDropsLeadingZeros | bump_version.py:10-11 | `1.02.3` becomes `1.2.4` |
| BumpVersion.IncrementTimesAdds | bump_version.py:9-11 | k increments of a valid version add k to the patch and keep major and minor |
| BumpVersion.AllPartsDigits | bump_version.py:20 | the digit check; AnyNumberOfPartsAccepted and RejectedPieceExits state what passes and what exits |
| BumpVersion.NextVersion | bump_version.py:19-28 | an empty or absent argument means the increment; a given one is used as it is exactly when every piece is digits, else exit code 1 |
| BumpVersion.AnyNumberOfPartsAccepted | bump_version.py:19-22 | any number of digit pieces passes the check, whatever the current version |
| BumpVersion.RejectedPieceExits | bump_version.py:20-22 | one piece that is empty or not all digits makes it exit with code 1 |

## Left out

- The HTTP requests (`httpx_get`, the request inside `journey`, `update_stations_json`) are I/O. The service is a function parameter. Mapping a timeout to exit code 2 and an HTTP error to exit code 1 lives inside that function and is not modelled.
- Reading `stations.json` (`get_uic_mapping`, and the file reads in `complete_name` and `journey`) is I/O. The mapping is a parameter. `complete_name` takes the names in the file's order.
- The FastAPI server, `get_token` and the typer wiring are thin adapters around the core.
- `generate_output` only prints. The model keeps the buffers and not Rich's rendering.
- `get_version.py`, and the reading, writing and printing of `pyproject.toml` in `bump_version.py`, are packaging I/O. The current version is a parameter.
- `datetime.now()` is a parameter. `time_left_minutes` takes its reference explicitly. Its default argument is evaluated once, when the module loads, and that is not modelled.
- Journey.RunJourney: "now" is one instant for the whole run. The Python reads the clock again for each trip.
- Floats are not modelled. `total_seconds() / 60` is exact integer division truncated toward zero over whole seconds. The service's timestamps carry whole seconds, so only float rounding of very large differences is lost.
- Time-zone databases are not modelled. Offsets are fixed integers of whole minutes.
- DateTimes.ParseTimestamp accepts less than `strptime`. It reads zero-padded fields only, and `%z` as `Z`, `+HHMM` or `+HH:MM`. It does not accept one-digit fields, seconds in an offset, or non-ASCII digits. `strptime` also matches the format's literal letters regardless of case, so it accepts a lower-case `t` between date and time, which the model refuses.
- Utils.ConvertToRfc3339 reads two-digit day, month, hour and minute and a four-digit year. `strptime` also accepts one-digit fields and non-ASCII decimal digits, which `isoformat` then writes in ASCII; the model refuses both. The format's space matches a run of whitespace; the model takes whitespace below code point 128 only (`Utils.IsSpace`: the space, `\t` to `\r`, and `\x1c` to `\x1f`), where `strptime` also takes the Unicode whitespace above it. Its ValueError carries the offending text, not CPython's message.
- BumpVersion.IntOf takes an optional sign and ASCII digits. `int()` also accepts surrounding whitespace, underscores between digits and non-ASCII digits. Its message puts the piece between single quotes, where CPython writes the piece's `repr()`, which differs for a piece holding a quote or an unprintable character.
- BumpVersion.AllPartsDigits takes ASCII digits. `str.isdigit` also accepts other Unicode digits.
- Trips: every JSON value is assumed to have the type the code expects. A value of another type, such as a number where a timestamp string goes, raises TypeError in the Python, which is not modelled.
- Trips: a key whose JSON value is `null` is treated as absent. The trip's destination and other unread fields are not modelled.
- The legacy departure's `platform` is typed `int` in the source but always used as text. It is modelled as a string.
- The journey loop raises `Exception("No track!")` and `Exception("No departure time!")`. These are modelled as `Raised` with the same text. Python's other errors are modelled by kind: a KeyError names the missing key, as CPython's does, while Departures.Strptime's ValueError carries the refused text instead of CPython's "time data ... does not match format ..." message.
- Printers: the printers read `cancelled`, `departure_time`, `arrival_time` and `calc_time_left_minutes()` from what they are given, which the `Departure` class of `nstimes/departure.py` does not have, so on that class `add_departure` would raise AttributeError. They are modelled over an abstract `View` record holding exactly the fields they read. The table printer reads `time_left_minutes` without calling it, which on that class would render a bound method; the console printer calls `calc_time_left_minutes()`. The model gives both printers the same `minutesLeft` integer.

=== FILE: bump_version.dfy ===
/**
 * `bump_version.py`: the next package version is either the one given on
 * the command line, after a digits-only check, or the current one with its
 * patch number raised by one. Reading and writing `pyproject.toml` is not
 * part of the model; the current version is passed in.
 */
module BumpVersion {
  import opened Wrappers
  import opened Errors
  import opened Text

  /** `int(part)`, with the ValueError Python raises for text that is no integer. */
  function IntOf(part: string): (r: Result<int, Error>)
    ensures r.Success? <==> ParseInt(part).Some?
    ensures r.Success? ==> r.value == ParseInt(part).value
    ensures r.Failure? ==> r.error == ValueError("invalid literal for int() with base 10: '" + part + "'")
  {
    match ParseInt(part)
    case Some(n) => Success(n)
    case None => Failure(ValueError("invalid literal for int() with base 10: '" + part + "'"))
  }

  /** A version as its three numbers. */
  datatype Version = Version(major: int, minor: int, patch: int)

  /** The version split at its dots and each piece converted to an integer, three pieces expected. */
  function ParseVersion(text: string): (r: Result<Version, Error>)
    ensures r.Success? <==>
      var parts := Split(text, '.');
      |parts| == 3 && forall k :: 0 <= k < 3 ==> ParseInt(parts[k]).Some?
    ensures r.Success? ==>
      var parts := Split(text, '.');
      r.value == Version(ParseInt(parts[0]).value, ParseInt(parts[1]).value, ParseInt(parts[2]).value)
    ensures r.Failure? ==> r.error.ValueError?
  {
    Unpack(Split(text, '.'))
  }

  /**
   * The unpacking converts pieces one at a time and stops at the first that
   * fails. With fewer than three pieces it converts them all and then finds
   * too few; with more it converts a fourth before finding too many.
   */
  function Unpack(parts: seq<string>): (r: Result<Version, Error>)
    requires |parts| > 0
    ensures r.Success? <==> |parts| == 3 && forall k :: 0 <= k < 3 ==> ParseInt(parts[k]).Some?
    ensures r.Success? ==>
      r.value == Version(ParseInt(parts[0]).value, ParseInt(parts[1]).value, ParseInt(parts[2]).value)
    ensures r.Failure? ==> r.error.ValueError?
    ensures ParseInt(parts[0]).None? ==> r == Failure(IntOf(parts[0]).error)
    ensures |parts| == 1 && ParseInt(parts[0]).Some?
            ==> r == Failure(ValueError("not enough values to unpack (expected 3, got 1)"))
    ensures |parts| >= 2 && ParseInt(parts[0]).Some? && ParseInt(parts[1]).None?
            ==> r == Failure(IntOf(parts[1]).error)
    ensures |parts| == 2 && ParseInt(parts[0]).Some? && ParseInt(parts[1]).Some?
            ==> r == Failure(ValueError("not enough values to unpack (expected 3, got 2)"))
    ensures |parts| >= 3 && ParseInt(parts[0]).Some? && ParseInt(parts[1]).Some? && ParseInt(parts[2]).None?
            ==> r == Failure(IntOf(parts[2]).error)
    ensures |parts| > 3 && ParseInt(parts[0]).Some? && ParseInt(parts[1]).Some? && ParseInt(parts[2]).Some?
            && ParseInt(parts[3]).None?
            ==> r == Failure(IntOf(parts[3]).error)
    ensures |parts| > 3 && ParseInt(parts[0]).Some? && ParseInt(parts[1]).Some? && ParseInt(parts[2]).Some?
            && ParseInt(parts[3]).Some?
            ==> r == Failure(ValueError("too many values to unpack (expected 3)"))
  {
    var major :- IntOf(parts[0]);
    if |parts| < 2 then Failure(ValueError("not enough values to unpack (expected 3, got 1)")) else
    var minor :- IntOf(parts[1]);
    if |parts| < 3 then Failure(ValueError("not enough values to unpack (expected 3, got 2)")) else
    var patch :- IntOf(parts[2]);
    if |parts| > 3 then
      var fourth :- IntOf(parts[3]);
      Failure(ValueError("too many values to unpack (expected 3)"))
    else
      Success(Version(major, minor, patch))
  }

  /** `f"{major}.{minor}.{patch}"`. */
  function VersionText(v: Version): string {
    Join([IntToString(v.major), IntToString(v.minor), IntToString(v.patch)], '.')
  }

  /** A rendered integer holds only digits and perhaps a leading minus, so never a dot. */
  lemma NoDotInInt(n: int)
    ensures '.' !in IntToString(n)
  {
    var s := IntToString(n);
    if n < 0 {
      assert s == "-" + NatToString(-n);
      assert forall k :: 1 <= k < |s| ==> s[k] == NatToString(-n)[k - 1];
    }
  }

  /** Rendering a version and parsing it back gives the same three numbers. */
  lemma ParseVersionText(v: Version)
    ensures Split(VersionText(v), '.') == [IntToString(v.major), IntToString(v.minor), IntToString(v.patch)]
    ensures ParseVersion(VersionText(v)) == Success(v)
  {
    var parts := [IntToString(v.major), IntToString(v.minor), IntToString(v.patch)];
    NoDotInInt(v.major);
    NoDotInInt(v.minor);
    NoDotInInt(v.patch);
    SplitJoin(parts, '.');
    ParseIntToString(v.major);
    ParseIntToString(v.minor);
    ParseIntToString(v.patch);
  }

/** `increment_patch_version(version)`: the same major and minor, the patch plus one. */
  function IncrementPatchVersion(version: string): (r: Result<string, Error>)
    ensures r.Success? <==> ParseVersion(version).Success?
    ensures r.Failure? ==> r == Failure(ParseVersion(version).error)
    ensures r.Success? ==>
      var v := ParseVersion(version).value;
      ParseVersion(r.value) == Success(Version(v.major, v.minor, v.patch + 1))
  {
    var v :- ParseVersion(version);
    var next := Version(v.major, v.minor, v.patch + 1);
    ParseVersionText(next);
    Success(VersionText(next))
  }

  /** Every piece of the increment's output is its number in plain decimal, so no leading zero survives. */
  lemma IncrementWritesDecimal(version: string)
    requires ParseVersion(version).Success?
    ensures var v := ParseVersion(version).value;
            Split(IncrementPatchVersion(version).value, '.')
            == [IntToString(v.major), IntToString(v.minor), IntToString(v.patch + 1)]
  {
    var v := ParseVersion(version).value;
    ParseVersionText(Version(v.major, v.minor, v.patch + 1));
  }

  /** The increment succeeds exactly on three dot-separated integers; anything else is a ValueError. */
  lemma IncrementAcceptsExactlyThree(version: string)
    ensures IncrementPatchVersion(version).Success? <==>
      var parts := Split(version, '.');
      |parts| == 3 && forall k :: 0 <= k < 3 ==> ParseInt(parts[k]).Some?
    ensures IncrementPatchVersion(version).Failure? ==> IncrementPatchVersion(version).error.ValueError?
  {
  }

  /** The parts are written back in decimal, so leading zeros do not survive: `1.02.3` gives `1.2.4`. */
  lemma IncrementDropsLeadingZeros()
    ensures IncrementPatchVersion("1.02.3") == Success("1.2.4")
  {
    OneZeroTwoThreeSplits();
    OneTwoThreeValues();
    assert ParseVersion("1.02.3") == Success(Version(1, 2, 3));
    OneTwoFourText();
  }

  lemma OneZeroTwoThreeSplits()
    ensures Split("1.02.3", '.') == ["1", "02", "3"]
  {
    assert "1.02.3" == Join(["1", "02", "3"], '.');
    SplitJoin(["1", "02", "3"], '.');
  }

  lemma OneTwoFourText()
    ensures VersionText(Version(1, 2, 4)) == "1.2.4"
  {
    assert IntToString(1) == "1" && IntToString(2) == "2" && IntToString(4) == "4";
  }

  lemma OneTwoThreeValues()
    ensures ParseInt("1") == Some(1) && ParseInt("02") == Some(2) && ParseInt("3") == Some(3)
  {
    assert "02"[..1] == "0";
    assert ParseDigits("0") == 0;
  }

  /** `step` applied `k` times, stopping at the first failure. */
  function Iterate(step: string -> Result<string, Error>, start: string, k: nat): Result<string, Error>
    decreases k
  {
    if k == 0 then Success(start)
    else
      var previous :- Iterate(step, start, k - 1);
      step(previous)
  }

  /** Incrementing `k` times. */
  function IncrementTimes(version: string, k: nat): Result<string, Error> {
    Iterate(IncrementPatchVersion, version, k)
  }

  /** Incrementing a valid version `k` times adds `k` to the patch number and keeps major and minor. */
  lemma IncrementTimesAdds(version: string, v: Version, k: nat)
    requires ParseVersion(version) == Success(v)
    ensures IncrementTimes(version, k).Success?
    ensures ParseVersion(IncrementTimes(version, k).value) == Success(Version(v.major, v.minor, v.patch + k))
  {
    forall text: string, w: Version | ParseVersion(text) == Success(w)
      ensures IncrementPatchVersion(text).Success?
      ensures ParseVersion(IncrementPatchVersion(text).value) == Success(Version(w.major, w.minor, w.patch + 1))
    {
      IncrementStep(text, w);
    }
    IterateAdds(IncrementPatchVersion, ParseVersion, version, v, k);
  }

  /** Helper: a step that adds one to the patch, taken `k` times, adds `k`. */
  lemma {:induction false} IterateAdds(step: string -> Result<string, Error>, parse: string -> Result<Version, Error>,
                                       start: string, v: Version, k: nat)
    requires parse(start) == Success(v)
    requires forall text, w :: parse(text) == Success(w) ==>
      step(text).Success? && parse(step(text).value) == Success(Version(w.major, w.minor, w.patch + 1))
    ensures Iterate(step, start, k).Success?
    ensures parse(Iterate(step, start, k).value) == Success(Version(v.major, v.minor, v.patch + k))
    decreases k
  {
    if k > 0 {
      IterateAdds(step, parse, start, v, k - 1);
    }
  }

  /** Helper: one increment of a version that parses as `w`. */
  lemma IncrementStep(previous: string, w: Version)
    requires ParseVersion(previous) == Success(w)
    ensures IncrementPatchVersion(previous).Success?
    ensures ParseVersion(IncrementPatchVersion(previous).value) == Success(Version(w.major, w.minor, w.patch + 1))
  {
  }

  /** The `--version` check: every dot-separated piece is non-empty ASCII digits. */
  predicate AllPartsDigits(text: string) {
    var parts := Split(text, '.');
    forall k :: 0 <= k < |parts| ==> IsDigitString(parts[k])
  }

  /**
   * The version written back: an empty or absent `--version` is falsy, so
   * the current version is incremented; a given one must pass the digit
   * check (else exit code 1) and is then used as it is, the increment not
   * being computed.
   */
  function NextVersion(argument: Option<string>, current: string): (r: Result<string, Error>)
    ensures argument.None? || argument == Some("") ==> r == IncrementPatchVersion(current)
    ensures argument.Some? && argument.value != "" ==>
      && (r.Success? <==> AllPartsDigits(argument.value))
      && (r.Success? ==> r.value == argument.value)
      && (r.Failure? ==> r.error == Exit(1))
  {
    match argument
    case Some(given) =>
      if given == "" then IncrementPatchVersion(current)
      else if !AllPartsDigits(given) then Failure(Exit(1))
      else Success(given)
    case None => IncrementPatchVersion(current)
  }

  /**
   * The check does not count pieces: any non-empty run of digit pieces
   * joined by dots is accepted as it is, whatever the current version,
   * even one the increment could not parse.
   */
  lemma AnyNumberOfPartsAccepted(parts: seq<string>, current: string)
    requires |parts| > 0
    requires forall k :: 0 <= k < |parts| ==> IsDigitString(parts[k])
    ensures NextVersion(Some(Join(parts, '.')), current) == Success(Join(parts, '.'))
  {
    forall k | 0 <= k < |parts|
      ensures '.' !in parts[k]
    {
      assert forall j :: 0 <= j < |parts[k]| ==> IsDigit(parts[k][j]);
    }
    SplitJoin(parts, '.');
    assert Join(parts, '.') != "" by {
      if |parts| == 1 {
        assert Join(parts, '.') == parts[0];
      } else {
        assert |Join(parts, '.')| >= |parts[0]| + 1;
      }
    }
  }

  /** A piece that is empty or holds anything but digits fails the check with exit code 1. */
  lemma RejectedPieceExits(given: string, k: nat, current: string)
    requires given != ""
    requires k < |Split(given, '.')| && !IsDigitString(Split(given, '.')[k])
    ensures NextVersion(Some(given), current) == Failure(Exit(1))
  {
  }
}

=== FILE: datetimes.dfy ===
/**
 * Instants, the proleptic Gregorian calendar as Python's `datetime` counts
 * it, whole-minute truncation, and the `%Y-%m-%dT%H:%M:%S%z` timestamps the
 * trip service sends.
 */
module DateTimes {
  import opened Wrappers
  import opened Text

  /** An aware instant: wall-clock seconds plus the UTC offset (seconds east) it is shown in. */
  datatype Instant = Instant(wall: int, offset: int) {
    /** The absolute instant, comparable across offsets. */
    function Utc(): int {
      wall - offset
    }
  }

  /**
   * `int(seconds / 60)`: whole minutes, truncated toward zero (Dafny's `/`
   * rounds toward minus infinity on negative numbers, Python's `int()` does not).
   */
  function MinutesOf(seconds: int): (m: int)
    ensures seconds >= 0 ==> 0 <= seconds - 60 * m < 60
    ensures seconds < 0 ==> -60 < seconds - 60 * m <= 0
  {
    if seconds >= 0 then seconds / 60 else -((-seconds) / 60)
  }

  /** A whole number of minutes is reported exactly. */
  lemma MinutesOfWhole(d: int)
    ensures MinutesOf(60 * d) == d
  {
  }

  /** Truncation is symmetric around zero. */
  lemma MinutesOfNegate(seconds: int)
    ensures MinutesOf(-seconds) == -MinutesOf(seconds)
  {
  }

  /** Anything short of a full minute, either way, counts as zero minutes. */
  lemma MinutesOfZero(seconds: int)
    ensures MinutesOf(seconds) == 0 <==> -60 < seconds < 60
  {
  }

  /** The minute count is negative exactly when at least a full minute is behind. */
  lemma MinutesOfNegative(seconds: int)
    ensures MinutesOf(seconds) < 0 <==> seconds <= -60
  {
  }

  /** +59 s and -59 s are 0 minutes, -61 s is -1 minute, where flooring division gives -2. */
  lemma MinutesOfExamples()
    ensures MinutesOf(59) == 0 && MinutesOf(-59) == 0 && MinutesOf(-61) == -1
    ensures -61 / 60 == -2
  {
  }

  predicate IsLeap(y: int) {
    y % 4 == 0 && (y % 100 != 0 || y % 400 == 0)
  }

  function DaysInMonth(y: int, m: int): (n: int)
    requires 1 <= m <= 12
    ensures 28 <= n <= 31
    ensures n == 29 <==> m == 2 && IsLeap(y)
  {
    if m == 2 then (if IsLeap(y) then 29 else 28)
    else if m == 4 || m == 6 || m == 9 || m == 11 then 30
    else 31
  }

  /** The dates `datetime` accepts: years 1 to 9999 and days that exist in their month. */
  predicate ValidDate(y: int, m: int, d: int) {
    1 <= y <= 9999 && 1 <= m <= 12 && 1 <= d <= DaysInMonth(y, m)
  }

  predicate ValidTimeOfDay(h: int, mi: int, s: int) {
    0 <= h < 24 && 0 <= mi < 60 && 0 <= s < 60
  }

  function DaysBeforeYear(y: int): int
    requires y >= 1
  {
    var p := y - 1;
    p * 365 + p / 4 - p / 100 + p / 400
  }

  function DaysBeforeMonth(y: int, m: int): int
    requires 1 <= m <= 12
  {
    [0, 0, 31, 59, 90, 120, 151, 181, 212, 243, 273, 304, 334][m]
    + (if m > 2 && IsLeap(y) then 1 else 0)
  }

  /** Helper: how many multiples of 4, 100 and 400 a step from `p` to `p + 1` passes. */
  lemma MultiplesStep(p: int)
    requires p >= 0
    ensures (p + 1) / 4 - p / 4 == (if (p + 1) % 4 == 0 then 1 else 0)
    ensures (p + 1) / 100 - p / 100 == (if (p + 1) % 100 == 0 then 1 else 0)
    ensures (p + 1) / 400 - p / 400 == (if (p + 1) % 400 == 0 then 1 else 0)
  {
  }

  /** A year has 366 days when it is a leap year and 365 otherwise. */
  lemma DaysBeforeYearStep(y: int)
    requires y >= 1
    ensures DaysBeforeYear(y + 1) == DaysBeforeYear(y) + (if IsLeap(y) then 366 else 365)
  {
    var p := y - 1;
    MultiplesStep(p);
    LeapCount(y);
    assert (p + 1) * 365 == p * 365 + 365;
  }

  /** Helper: the multiples of 4, less those of 100, plus those of 400, count the leap years. */
  lemma LeapCount(y: int)
    ensures (if y % 4 == 0 then 1 else 0) - (if y % 100 == 0 then 1 else 0) + (if y % 400 == 0 then 1 else 0)
            == (if IsLeap(y) then 1 else 0)
  {
    if y % 400 == 0 {
      var q := y / 400;
      assert y == 100 * (4 * q) && y == 4 * (100 * q);
    } else if y % 100 == 0 {
      var q := y / 100;
      assert y == 4 * (25 * q);
    }
  }

  /** The days before a month grow by the length of the month before it. */
  lemma DaysBeforeMonthStep(y: int, m: int)
    requires 1 <= m <= 12
    ensures m < 12 ==> DaysBeforeMonth(y, m + 1) == DaysBeforeMonth(y, m) + DaysInMonth(y, m)
    ensures m == 12 ==> DaysBeforeMonth(y, m) + DaysInMonth(y, m) == (if IsLeap(y) then 366 else 365)
  {
  }

  /** The calendar's next day: the next day of the month, else the 1st of the next month, else 1 January. */
  function NextDay(y: int, m: int, d: int): (int, int, int)
    requires ValidDate(y, m, d)
  {
    if d < DaysInMonth(y, m) then (y, m, d + 1)
    else if m < 12 then (y, m + 1, 1)
    else (y + 1, 1, 1)
  }

  /**
   * `date.toordinal()` counts days without gaps: every date but the last
   * that `datetime` knows is followed by a valid date one day later, whose
   * midnight is one second after 23:59:59 of the day before.
   */
  lemma OrdinalNextDay(y: int, m: int, d: int)
    requires ValidDate(y, m, d) && (y, m, d) != (9999, 12, 31)
    ensures var n := NextDay(y, m, d);
            && ValidDate(n.0, n.1, n.2)
            && Ordinal(n.0, n.1, n.2) == Ordinal(y, m, d) + 1
            && WallSeconds(n.0, n.1, n.2, 0, 0, 0) == WallSeconds(y, m, d, 23, 59, 59) + 1
  {
    var n := NextDay(y, m, d);
    NextOrdinal(y, m, d);
    MidnightAfter(Ordinal(y, m, d), Ordinal(n.0, n.1, n.2));
    assert WallSeconds(n.0, n.1, n.2, 0, 0, 0) == Ordinal(n.0, n.1, n.2) * 86400 + 0 * 3600 + 0 * 60 + 0;
    assert WallSeconds(y, m, d, 23, 59, 59) == Ordinal(y, m, d) * 86400 + 23 * 3600 + 59 * 60 + 59;
  }

  /** The ordinal count starts at 0001-01-01, which is day 1. */
  lemma OrdinalEpoch()
    ensures Ordinal(1, 1, 1) == 1
  {
    assert DaysBeforeYear(1) == 0;
    assert DaysBeforeMonth(1, 1) == 0;
  }

  /** Helper: the next day is valid and its ordinal is one more. */
  lemma NextOrdinal(y: int, m: int, d: int)
    requires ValidDate(y, m, d) && (y, m, d) != (9999, 12, 31)
    ensures var n := NextDay(y, m, d);
            ValidDate(n.0, n.1, n.2) && Ordinal(n.0, n.1, n.2) == Ordinal(y, m, d) + 1
  {
    DaysBeforeMonthStep(y, m);
    if d == DaysInMonth(y, m) && m == 12 {
      DaysBeforeYearStep(y);
    }
  }

  /** Helper: midnight of day `next` is one second after 23:59:59 of day `next - 1`. */
  lemma MidnightAfter(day: int, next: int)
    requires next == day + 1
    ensures next * 86400 + 0 * 3600 + 0 * 60 + 0 == day * 86400 + 23 * 3600 + 59 * 60 + 59 + 1
  {
  }

  /** `date.toordinal()`: 0001-01-01 is day 1. */
  function Ordinal(y: int, m: int, d: int): (n: int)
    requires ValidDate(y, m, d)
    ensures n >= 1
  {
    DaysBeforeYear(y) + DaysBeforeMonth(y, m) + d
  }

  /** The wall clock as seconds since the ordinal epoch; naive `datetime` subtraction differences these. */
  function WallSeconds(y: int, m: int, d: int, h: int, mi: int, s: int): int
    requires ValidDate(y, m, d) && ValidTimeOfDay(h, mi, s)
  {
    Ordinal(y, m, d) * 86400 + h * 3600 + mi * 60 + s
  }

  function HourOf(wall: int): (h: int)
    ensures 0 <= h < 24
  {
    (wall / 3600) % 24
  }

  function MinuteOf(wall: int): (mi: int)
    ensures 0 <= mi < 60
  {
    (wall / 60) % 60
  }

  /** `strftime('%H:%M')`. */
  function ClockText(wall: int): (r: string)
    ensures |r| == 5 && r[2] == ':' && AllDigits(r[..2]) && AllDigits(r[3..])
    ensures ParseDigits(r[..2]) == HourOf(wall) && ParseDigits(r[3..]) == MinuteOf(wall)
  {
    var r := Pad2(HourOf(wall)) + ":" + Pad2(MinuteOf(wall));
    assert r[..2] == Pad2(HourOf(wall)) && r[3..] == Pad2(MinuteOf(wall));
    r
  }

  /** The hour and minute read off wall-clock seconds are the ones it was built from. */
  lemma ClockOfWall(y: int, m: int, d: int, h: int, mi: int, s: int)
    requires ValidDate(y, m, d) && ValidTimeOfDay(h, mi, s)
    ensures HourOf(WallSeconds(y, m, d, h, mi, s)) == h
    ensures MinuteOf(WallSeconds(y, m, d, h, mi, s)) == mi
  {
    ClockOfDay(Ordinal(y, m, d), h, mi, s);
  }

  lemma ClockOfDay(days: int, h: int, mi: int, s: int)
    requires ValidTimeOfDay(h, mi, s)
    ensures HourOf(days * 86400 + h * 3600 + mi * 60 + s) == h
    ensures MinuteOf(days * 86400 + h * 3600 + mi * 60 + s) == mi
  {
    var w := days * 86400 + h * 3600 + mi * 60 + s;
    assert w == (days * 24 + h) * 3600 + (mi * 60 + s);
    assert w / 3600 == days * 24 + h;
    assert w == (days * 1440 + h * 60 + mi) * 60 + s;
    assert w / 60 == days * 1440 + h * 60 + mi;
  }

  /** `%z`: `Z`, `+HHMM` or `+HH:MM` (or with `-`); the offset must be less than a day. */
  function ParseOffset(z: string): (r: Option<int>)
    ensures r.Some? ==> -86400 < r.value < 86400 && r.value % 60 == 0
  {
    if z == "Z" then Some(0)
    else if (|z| == 5 || (|z| == 6 && z[3] == ':')) && (z[0] == '+' || z[0] == '-') then
      OffsetSeconds(z[0] == '-', z[1..3], z[|z| - 2..])
    else None
  }

  /** The signed offset of `HH` hours and `MM` minutes, when both are digits, minutes below 60 and the total below a day. */
  function OffsetSeconds(negative: bool, hh: string, mm: string): (r: Option<int>)
    requires |hh| == 2 && |mm| == 2
    ensures r.Some? ==> -86400 < r.value < 86400 && r.value % 60 == 0
  {
    if AllDigits(hh) && AllDigits(mm) && mm[0] <= '5' then
      var minutes: int := ParseDigits(hh) * 60 + ParseDigits(mm);
      WholeMinutes(minutes);
      if minutes < 1440 then Some(if negative then -(minutes * 60) else minutes * 60) else None
    else None
  }

  lemma WholeMinutes(minutes: int)
    ensures (minutes * 60) % 60 == 0 && (-(minutes * 60)) % 60 == 0
  {
    assert -(minutes * 60) == (-minutes) * 60;
  }

  /** Digits where the fields of `YYYY-MM-DDTHH:MM:SS` go, and its separators elsewhere. */
  predicate TimestampShape(s: string) {
    && |s| >= 19
    && AllDigits(s[0..4]) && s[4] == '-' && AllDigits(s[5..7]) && s[7] == '-'
    && AllDigits(s[8..10]) && s[10] == 'T' && AllDigits(s[11..13]) && s[13] == ':'
    && AllDigits(s[14..16]) && s[16] == ':' && AllDigits(s[17..19])
  }

  /** The fields of a well-shaped timestamp name a date that exists and a time of day. */
  predicate FieldsValid(s: string)
    requires TimestampShape(s)
  {
    && ValidDate(ParseDigits(s[0..4]), ParseDigits(s[5..7]), ParseDigits(s[8..10]))
    && ValidTimeOfDay(ParseDigits(s[11..13]), ParseDigits(s[14..16]), ParseDigits(s[17..19]))
  }

  /**
   * `datetime.strptime(s, "%Y-%m-%dT%H:%M:%S%z")` on zero-padded fields:
   * None where Python raises ValueError (wrong shape, no such date or time,
   * bad offset).
   */
  function ParseTimestamp(s: string): (r: Option<Instant>)
    ensures r.Some? <==> TimestampShape(s) && FieldsValid(s) && ParseOffset(s[19..]).Some?
    ensures r.Some? ==>
      var y, m, d := ParseDigits(s[0..4]), ParseDigits(s[5..7]), ParseDigits(s[8..10]);
      var h, mi, sec := ParseDigits(s[11..13]), ParseDigits(s[14..16]), ParseDigits(s[17..19]);
      && ValidDate(y, m, d) && ValidTimeOfDay(h, mi, sec)
      && r.value == Instant(WallSeconds(y, m, d, h, mi, sec), ParseOffset(s[19..]).value)
    ensures r.Some? ==> ClockText(r.value.wall) == s[11..16]
    ensures r.Some? ==> r.value.offset % 60 == 0 && -86400 < r.value.offset < 86400
  {
    if !TimestampShape(s) then None
    else
      var y, m, d := ParseDigits(s[0..4]), ParseDigits(s[5..7]), ParseDigits(s[8..10]);
      var h, mi, sec := ParseDigits(s[11..13]), ParseDigits(s[14..16]), ParseDigits(s[17..19]);
      if !ValidDate(y, m, d) || !ValidTimeOfDay(h, mi, sec) then None
      else
        match ParseOffset(s[19..])
        case None => None
        case Some(offset) =>
          ClockFields(s, y, m, d, h, mi, sec);
          Some(Instant(WallSeconds(y, m, d, h, mi, sec), offset))
  }

  /** Helper: the `HH:MM` of a well-shaped timestamp is rendered back unchanged. */
  lemma ClockFields(s: string, y: int, m: int, d: int, h: int, mi: int, sec: int)
    requires TimestampShape(s) && ValidDate(y, m, d) && ValidTimeOfDay(h, mi, sec)
    requires h == ParseDigits(s[11..13]) && mi == ParseDigits(s[14..16])
    ensures ClockText(WallSeconds(y, m, d, h, mi, sec)) == s[11..16]
  {
    ClockOfWall(y, m, d, h, mi, sec);
    Pad2OfParse(s[11..13]);
    Pad2OfParse(s[14..16]);
    assert s[11..16] == s[11..13] + ":" + s[14..16];
  }

  /** The `+HHMM` rendering of an offset that is a whole number of minutes. */
  function OffsetText(offset: int): string
    requires offset % 60 == 0 && -86400 < offset < 86400
  {
    var a := if offset < 0 then -offset else offset;
    (if offset < 0 then "-" else "+") + Pad2(a / 3600) + Pad2(a % 3600 / 60)
  }

  /** A timestamp as the trip service writes it. */
  function TimestampText(y: int, m: int, d: int, h: int, mi: int, s: int, offset: int): string
    requires ValidDate(y, m, d) && ValidTimeOfDay(h, mi, s)
    requires offset % 60 == 0 && -86400 < offset < 86400
  {
    Pad4(y) + "-" + Pad2(m) + "-" + Pad2(d) + "T" + Pad2(h) + ":" + Pad2(mi) + ":" + Pad2(s)
    + OffsetText(offset)
  }

  lemma ParseOffsetText(offset: int)
    requires offset % 60 == 0 && -86400 < offset < 86400
    ensures ParseOffset(OffsetText(offset)) == Some(offset)
  {
    var a := if offset < 0 then -offset else offset;
    var z := OffsetText(offset);
    assert z[1..3] == Pad2(a / 3600);
    assert z[|z| - 2..] == Pad2(a % 3600 / 60);
    assert a / 3600 * 3600 + a % 3600 / 60 * 60 == a;
  }

  /** Parsing a timestamp the service wrote gives back the instant it describes. */
  lemma ParseTimestampText(y: int, m: int, d: int, h: int, mi: int, s: int, offset: int)
    requires ValidDate(y, m, d) && ValidTimeOfDay(h, mi, s)
    requires offset % 60 == 0 && -86400 < offset < 86400
    ensures ParseTimestamp(TimestampText(y, m, d, h, mi, s, offset))
            == Some(Instant(WallSeconds(y, m, d, h, mi, s), offset))
  {
    TimestampSlices(Pad4(y), Pad2(m), Pad2(d), Pad2(h), Pad2(mi), Pad2(s), OffsetText(offset));
    ParseOffsetText(offset);
  }

  /** Helper: each field of a timestamp is found at its place. */
  lemma TimestampSlices(y: string, m: string, d: string, h: string, mi: string, s: string, z: string)
    requires |y| == 4 && |m| == 2 && |d| == 2 && |h| == 2 && |mi| == 2 && |s| == 2
    ensures var t := y + "-" + m + "-" + d + "T" + h + ":" + mi + ":" + s + z;
            && t[0..4] == y && t[4] == '-' && t[5..7] == m && t[7] == '-' && t[8..10] == d
            && t[10] == 'T' && t[11..13] == h && t[13] == ':' && t[14..16] == mi && t[16] == ':'
            && t[17..19] == s && t[19..] == z
  {
  }
}

=== FILE: departure.dfy ===
/**
 * `nstimes/departure.py`: the departure value with its delay and
 * minutes-left arithmetic, and `get_departures`, which turns each trip the
 * service returns into one departure.
 */
module Departures {
  import opened Wrappers
  import opened Errors
  import opened DateTimes
  import opened Trips
  import Utils

  /** The platform label shown when a leg names no track. */
  const UnknownTrack := "?"

  /** A departure: the actual time is always present, on time being the default. */
  datatype Departure = Departure(trainType: string, platform: string, planned: Instant, actual: Instant)

  /** The dataclass constructor with `__post_init__`: without an actual time the planned one stands. */
  function NewDeparture(trainType: string, platform: string, planned: Instant, actualInit: Option<Instant>)
    : Departure
  {
    Departure(trainType, platform, planned, actualInit.GetOr(planned))
  }

  /** `delay_minutes`: actual minus planned, in minutes truncated toward zero. */
  function DelayMinutes(d: Departure): int {
    MinutesOf(d.actual.Utc() - d.planned.Utc())
  }

  /**
   * `time_left_minutes(reference)`: the reference keeps its wall clock but
   * takes the departure's offset before the subtraction, so only the two
   * wall clocks matter.
   */
  function TimeLeftMinutes(d: Departure, reference: Instant): (m: int)
    ensures m == MinutesOf(d.actual.wall - reference.wall)
  {
    var attached := Instant(reference.wall, d.actual.offset);
    MinutesOf(d.actual.Utc() - attached.Utc())
  }

  /** Without an actual time a departure is on time: actual equals planned and the delay is 0. */
  lemma OnTimeByDefault(trainType: string, platform: string, planned: Instant)
    ensures NewDeparture(trainType, platform, planned, None).actual == planned
    ensures DelayMinutes(NewDeparture(trainType, platform, planned, None)) == 0
  {
  }

  /** A given actual time is kept as it is. */
  lemma ActualKept(trainType: string, platform: string, planned: Instant, actual: Instant)
    ensures NewDeparture(trainType, platform, planned, Some(actual)).actual == actual
    ensures DelayMinutes(NewDeparture(trainType, platform, planned, Some(actual)))
            == MinutesOf(actual.Utc() - planned.Utc())
  {
  }

  /** A departure running `k` whole minutes late (or early, for negative `k`) has delay `k`. */
  lemma DelayOfShift(d: Departure, k: int)
    requires d.actual == Instant(d.planned.wall + 60 * k, d.planned.offset)
    ensures DelayMinutes(d) == k
  {
    assert d.actual.Utc() - d.planned.Utc() == 60 * k;
    MinutesOfWhole(k);
  }

  /** The delay is the number of whole minutes between the two times, rounded toward zero. */
  lemma DelayBounds(d: Departure)
    ensures var late := d.actual.Utc() - d.planned.Utc();
            && (late >= 0 ==> 0 <= DelayMinutes(d) && 60 * DelayMinutes(d) <= late < 60 * DelayMinutes(d) + 60)
            && (late < 0 ==> DelayMinutes(d) <= 0 && 60 * DelayMinutes(d) - 60 < late <= 60 * DelayMinutes(d))
  {
  }

  /** The reference's own offset plays no part in the minutes left. */
  lemma TimeLeftIgnoresReferenceOffset(d: Departure, r1: Instant, r2: Instant)
    requires r1.wall == r2.wall
    ensures TimeLeftMinutes(d, r1) == TimeLeftMinutes(d, r2)
  {
  }

  /** Measured from its planned time, a departure `k` minutes late leaves in `k` minutes. */
  lemma TimeLeftFromPlanned(d: Departure, k: int)
    requires d.actual == Instant(d.planned.wall + 60 * k, d.planned.offset)
    ensures TimeLeftMinutes(d, d.planned) == k
    ensures DelayMinutes(d) == k
  {
    MinutesOfWhole(k);
    DelayOfShift(d, k);
  }

  /**
   * Planned 10:00, actual 10:05 and reference 09:50, all at +02:00 on
   * 10 October 2023: 15 minutes left and 5 minutes delay.
   */
  lemma ExampleLateDeparture()
    ensures var d := NewDeparture("IC", "5b", Instant(WallSeconds(2023, 10, 10, 10, 0, 0), 7200),
                                  Some(Instant(WallSeconds(2023, 10, 10, 10, 5, 0), 7200)));
            && TimeLeftMinutes(d, Instant(WallSeconds(2023, 10, 10, 9, 50, 0), 7200)) == 15
            && DelayMinutes(d) == 5
  {
    var day := Ordinal(2023, 10, 10) * 86400;
    MinutesOfWhole(15);
    MinutesOfWhole(5);
    assert (day + 10 * 3600 + 5 * 60) - (day + 9 * 3600 + 50 * 60) == 60 * 15;
  }

  /** `strptime` on one of the service's timestamps, ValueError on text it refuses. */
  function Strptime(text: string): (r: Result<Instant, Error>)
    ensures r.Success? <==> ParseTimestamp(text).Some?
    ensures r.Success? ==> r.value == ParseTimestamp(text).value
    ensures r.Failure? ==> r.error == ValueError(text)
  {
    match ParseTimestamp(text)
    case Some(t) => Success(t)
    case None => Failure(ValueError(text))
  }

  /** An optional timestamp: parsed when the key is there, left absent otherwise. */
  function StrptimeIfPresent(text: Option<string>): (r: Result<Option<Instant>, Error>)
    ensures text.None? ==> r == Success(None)
    ensures text.Some? ==> (r.Success? <==> ParseTimestamp(text.value).Some?)
    ensures text.Some? && r.Success? ==> r.value == ParseTimestamp(text.value)
  {
    match text
    case None => Success(None)
    case Some(t) =>
      var parsed :- Strptime(t);
      Success(Some(parsed))
  }

  /** The platform label: the actual track when the origin has one, else the planned one, else `?`. */
  function TrackOf(origin: Stop): string {
    origin.actualTrack.GetOr(origin.plannedTrack.GetOr(UnknownTrack))
  }

  /** The actual track wins over the planned one, and `?` stands in when there is neither. */
  lemma TrackPreference(origin: Stop)
    ensures origin.actualTrack.Some? ==> TrackOf(origin) == origin.actualTrack.value
    ensures origin.actualTrack.None? && origin.plannedTrack.Some?
            ==> TrackOf(origin) == origin.plannedTrack.value
    ensures origin.actualTrack.None? && origin.plannedTrack.None? ==> TrackOf(origin) == UnknownTrack
  {
  }

  /** The departure `get_departures` builds from one leg, failing where the Python raises. */
  function LegToDeparture(leg: Leg): (r: Result<Departure, Error>)
    ensures r.Success? ==>
      && leg.origin.Some? && leg.product.Some? && leg.product.value.categoryCode.Some?
      && var origin := leg.origin.value;
      && origin.plannedDateTime.Some?
      && ParseTimestamp(origin.plannedDateTime.value) == Some(r.value.planned)
      && r.value.platform == TrackOf(origin)
      && r.value.trainType == leg.product.value.categoryCode.value
      && (origin.actualDateTime.None? ==> r.value.actual == r.value.planned)
      && (origin.actualDateTime.Some? ==> ParseTimestamp(origin.actualDateTime.value) == Some(r.value.actual))
    ensures r.Success? <==>
      && leg.origin.Some? && leg.origin.value.plannedDateTime.Some?
      && ParseTimestamp(leg.origin.value.plannedDateTime.value).Some?
      && (leg.origin.value.actualDateTime.Some? ==> ParseTimestamp(leg.origin.value.actualDateTime.value).Some?)
      && leg.product.Some? && leg.product.value.categoryCode.Some?
    ensures leg.origin.None? ==> r == Failure(KeyError("origin"))
    ensures leg.origin.Some? && leg.origin.value.plannedDateTime.None?
            ==> r == Failure(KeyError("plannedDateTime"))
    ensures leg.origin.Some? && leg.origin.value.plannedDateTime.Some?
            && ParseTimestamp(leg.origin.value.plannedDateTime.value).None?
            ==> r == Failure(ValueError(leg.origin.value.plannedDateTime.value))
    ensures leg.origin.Some? && leg.origin.value.plannedDateTime.Some?
            && ParseTimestamp(leg.origin.value.plannedDateTime.value).Some?
            && leg.origin.value.actualDateTime.Some?
            && ParseTimestamp(leg.origin.value.actualDateTime.value).None?
            ==> r == Failure(ValueError(leg.origin.value.actualDateTime.value))
    ensures leg.origin.Some? && leg.origin.value.plannedDateTime.Some?
            && ParseTimestamp(leg.origin.value.plannedDateTime.value).Some?
            && (leg.origin.value.actualDateTime.Some? ==> ParseTimestamp(leg.origin.value.actualDateTime.value).Some?)
            ==> && (leg.product.None? ==> r == Failure(KeyError("product")))
                && (leg.product.Some? && leg.product.value.categoryCode.None? ==> r == Failure(KeyError("categoryCode")))
  {
    var origin :- Get(leg.origin, "origin");
    var plannedText :- Get(origin.plannedDateTime, "plannedDateTime");
    var planned :- Strptime(plannedText);
    var actual :- StrptimeIfPresent(origin.actualDateTime);
    var product :- Get(leg.product, "product");
    var trainType :- Get(product.categoryCode, "categoryCode");
    Success(NewDeparture(trainType, TrackOf(origin), planned, actual))
  }

  /** One trip's departure: from its first leg only. */
  function TripToDeparture(trip: Trip): (r: Result<Departure, Error>)
    ensures trip.legs.None? ==> r == Failure(KeyError("legs"))
    ensures trip.legs == Some([]) ==> r == Failure(IndexError)
    ensures trip.legs.Some? && |trip.legs.value| > 0 ==> r == LegToDeparture(trip.legs.value[0])
  {
    var leg :- FirstLeg(trip);
    LegToDeparture(leg)
  }

  /** Legs after the first never change a trip's departure. */
  lemma OnlyFirstLegCounts(trip: Trip, more: seq<Leg>)
    requires trip.legs.Some? && |trip.legs.value| > 0
    ensures TripToDeparture(Trip(Some([trip.legs.value[0]] + more))) == TripToDeparture(trip)
  {
  }

  /**
   * The loop of `get_departures`: one departure per trip, in trip order, no
   * filtering; the first trip that raises ends it with that trip's error.
   */
  method MapTrips(trips: seq<Trip>) returns (r: Result<seq<Departure>, Error>)
    ensures r.Success? <==> forall i :: 0 <= i < |trips| ==> TripToDeparture(trips[i]).Success?
    ensures r.Success? ==> |r.value| == |trips|
    ensures r.Success? ==> forall i :: 0 <= i < |trips| ==> r.value[i] == TripToDeparture(trips[i]).value
    ensures r.Failure? ==>
      exists k :: 0 <= k < |trips| && TripToDeparture(trips[k]) == Failure(r.error)
                  && forall i :: 0 <= i < k ==> TripToDeparture(trips[i]).Success?
  {
    var results := seq(|trips|, i requires 0 <= i < |trips| => TripToDeparture(trips[i]));
    assert forall i :: 0 <= i < |trips| ==> results[i] == TripToDeparture(trips[i]);
    r := Collect(results);
    if r.Failure? {
      var k :| 0 <= k < |results| && results[k] == Failure(r.error)
               && forall i :: 0 <= i < k ==> results[i].Success?;
      assert TripToDeparture(trips[k]) == Failure(r.error);
    }
  }

  /** The values of a run of results, stopping at the first failure, which becomes the outcome. */
  method Collect<T>(results: seq<Result<T, Error>>) returns (r: Result<seq<T>, Error>)
    ensures r.Success? <==> forall i :: 0 <= i < |results| ==> results[i].Success?
    ensures r.Success? ==> |r.value| == |results|
    ensures r.Success? ==> forall i :: 0 <= i < |results| ==> r.value[i] == results[i].value
    ensures r.Failure? ==>
      exists k :: 0 <= k < |results| && results[k] == Failure(r.error)
                  && forall i :: 0 <= i < k ==> results[i].Success?
  {
    var values: seq<T> := [];
    var i := 0;
    while i < |results|
      invariant 0 <= i <= |results|
      invariant |values| == i
      invariant forall j :: 0 <= j < i ==> results[j].Success? && values[j] == results[j].value
    {
      if results[i].Failure? {
        return Failure(results[i].error);
      }
      values := values + [results[i].value];
      i := i + 1;
    }
    return Success(values);
  }

  /** The trip service as seen from here: headers and query in, decoded body or an exit out. */
  type TripService = (map<string, string>, Query) -> Result<Body, Error>

  /**
   * What `get_departures` has before its loop: both station codes, then one
   * request, then the body's `trips`. A station lookup that fails ends
   * everything before the service is asked.
   */
  function FetchTrips(mapping: map<string, string>, start: string, end: string, token: string,
                      dateTime: string, service: TripService): (r: Result<seq<Trip>, Error>)
    ensures start !in mapping ==> r == Failure(KeyError(start))
    ensures start in mapping && end !in mapping ==> r == Failure(KeyError(end))
    ensures start in mapping && end in mapping ==>
      var response := service(Utils.GetHeaders(token), Query(mapping[start], mapping[end], Some(dateTime)));
      && (response.Failure? ==> r == Failure(response.error))
      && (response.Success? ==> r == Get(response.value.trips, "trips"))
  {
    var query :- BuildQuery(mapping, start, end, Some(dateTime));
    var body :- service(Utils.GetHeaders(token), query);
    Get(body.trips, "trips")
  }

  /** An unknown station is reported the same whatever the service would have answered. */
  lemma UnknownStationBeforeRequest(mapping: map<string, string>, start: string, end: string,
                                    token: string, dateTime: string, s1: TripService, s2: TripService)
    requires start !in mapping || end !in mapping
    ensures FetchTrips(mapping, start, end, token, dateTime, s1)
            == FetchTrips(mapping, start, end, token, dateTime, s2)
    ensures FetchTrips(mapping, start, end, token, dateTime, s1).Failure?
  {
  }

  /** `get_departures(start, end, token, dateTime)`, with the station mapping and the service passed in. */
  method GetDepartures(mapping: map<string, string>, start: string, end: string, token: string,
                       dateTime: string, service: TripService)
    returns (r: Result<seq<Departure>, Error>)
    ensures FetchTrips(mapping, start, end, token, dateTime, service).Failure?
            ==> r == Failure(FetchTrips(mapping, start, end, token, dateTime, service).error)
    ensures r.Success? ==>
      var trips := FetchTrips(mapping, start, end, token, dateTime, service);
      && trips.Success? && |r.value| == |trips.value|
      && forall i :: 0 <= i < |trips.value| ==>
           TripToDeparture(trips.value[i]).Success? && r.value[i] == TripToDeparture(trips.value[i]).value
    ensures r.Failure? ==>
      var trips := FetchTrips(mapping, start, end, token, dateTime, service);
      trips.Failure? || exists k :: 0 <= k < |trips.value| && TripToDeparture(trips.value[k]) == Failure(r.error)
                          && forall i :: 0 <= i < k ==> TripToDeparture(trips.value[i]).Success?
  {
    var trips := FetchTrips(mapping, start, end, token, dateTime, service);
    if trips.Failure? {
      return Failure(trips.error);
    }
    r := MapTrips(trips.value);
  }
}

=== FILE: journey.dfy ===
/**
 * `nstimes/main.py`: station-name completion and the `journey` command,
 * which prints one line per trip that has not yet left.
 */
module Journey {
  import opened Wrappers
  import opened Errors
  import opened Text
  import opened DateTimes
  import opened Trips
  import opened Departures
  import Utils

  /** Trips whose minutes left fall below this are not printed. */
  const MinutesNeeded := 0

  /** The names that start with `incomplete`, in the mapping's order. */
  function Completions(names: seq<string>, incomplete: string): seq<string>
    decreases |names|
  {
    if |names| == 0 then []
    else
      var last := names[|names| - 1];
      Completions(names[..|names| - 1], incomplete) + (if StartsWith(last, incomplete) then [last] else [])
  }

  /** A name is offered exactly when it is a station name starting with the typed prefix. */
  lemma {:induction false} CompletionsMembership(names: seq<string>, incomplete: string, n: string)
    ensures n in Completions(names, incomplete) <==> n in names && StartsWith(n, incomplete)
    decreases |names|
  {
    if |names| > 0 {
      CompletionsMembership(names[..|names| - 1], incomplete, n);
      assert names == names[..|names| - 1] + [names[|names| - 1]];
    }
  }

  /** Completion keeps order: completing a concatenation concatenates the completions. */
  lemma {:induction false} CompletionsAppend(a: seq<string>, b: seq<string>, incomplete: string)
    ensures Completions(a + b, incomplete) == Completions(a, incomplete) + Completions(b, incomplete)
    decreases |b|
  {
    if |b| == 0 {
      assert a + b == a;
    } else {
      var b' := b[..|b| - 1];
      CompletionsAppend(a, b', incomplete);
      assert (a + b)[..|a + b| - 1] == a + b';
    }
  }

  /** Every name starts with the empty prefix, so it completes to all names. */
  lemma {:induction false} CompletionsOfEmpty(names: seq<string>)
    ensures Completions(names, "") == names
    decreases |names|
  {
    if |names| > 0 {
      CompletionsOfEmpty(names[..|names| - 1]);
      assert names == names[..|names| - 1] + [names[|names| - 1]];
    }
  }

  /** `complete_name(incomplete)`, with the station names passed in, in the file's order. */
  method CompleteName(names: seq<string>, incomplete: string) returns (completion: seq<string>)
    ensures completion == Completions(names, incomplete)
    ensures forall n :: n in completion <==> n in names && StartsWith(n, incomplete)
    ensures incomplete == "" ==> completion == names
  {
    completion := [];
    var i := 0;
    while i < |names|
      invariant 0 <= i <= |names|
      invariant completion == Completions(names[..i], incomplete)
    {
      assert names[..i + 1][..i] == names[..i];
      if StartsWith(names[i], incomplete) {
        completion := completion + [names[i]];
      }
      i := i + 1;
    }
    assert names[..i] == names;
    forall n
      ensures n in completion <==> n in names && StartsWith(n, incomplete)
    {
      CompletionsMembership(names, incomplete, n);
    }
    if incomplete == "" {
      CompletionsOfEmpty(names);
    }
  }

  /** The track `journey` prints: actual, else planned, else it raises. */
  function JourneyTrack(origin: Stop): Result<string, Error> {
    if origin.actualTrack.Some? then Success(origin.actualTrack.value)
    else if origin.plannedTrack.Some? then Success(origin.plannedTrack.value)
    else Failure(Raised("No track!"))
  }

  /** Where `get_departures` shows `?`, `journey` raises; otherwise both show the same track. */
  lemma JourneyTrackAgrees(origin: Stop)
    ensures JourneyTrack(origin).Failure? <==> origin.actualTrack.None? && origin.plannedTrack.None?
    ensures JourneyTrack(origin).Success? ==> JourneyTrack(origin).value == TrackOf(origin)
    ensures JourneyTrack(origin).Failure? ==> JourneyTrack(origin).error == Raised("No track!")
  {
  }

  /** The time `journey` prints and its delay in seconds. */
  datatype Timing = Timing(departure: Instant, delaySeconds: int)

  /** Actual time with the delay against planned, else planned with no delay, else it raises. */
  function JourneyTiming(origin: Stop): (r: Result<Timing, Error>)
    ensures origin.actualDateTime.None? && origin.plannedDateTime.None?
            ==> r == Failure(Raised("No departure time!"))
    ensures origin.actualDateTime.None? && origin.plannedDateTime.Some? ==>
      && (r.Success? <==> ParseTimestamp(origin.plannedDateTime.value).Some?)
      && (r.Success? ==> r.value == Timing(ParseTimestamp(origin.plannedDateTime.value).value, 0))
    ensures origin.actualDateTime.Some? ==>
      && (r.Success? <==> ParseTimestamp(origin.actualDateTime.value).Some? && origin.plannedDateTime.Some?
                          && ParseTimestamp(origin.plannedDateTime.value).Some?)
      && (r.Success? ==>
            && r.value.departure == ParseTimestamp(origin.actualDateTime.value).value
            && r.value.delaySeconds
               == r.value.departure.Utc() - ParseTimestamp(origin.plannedDateTime.value).value.Utc())
    ensures origin.actualDateTime.Some? && ParseTimestamp(origin.actualDateTime.value).None?
            ==> r == Failure(ValueError(origin.actualDateTime.value))
    ensures origin.actualDateTime.Some? && ParseTimestamp(origin.actualDateTime.value).Some?
            && origin.plannedDateTime.None?
            ==> r == Failure(KeyError("plannedDateTime"))
    ensures (origin.actualDateTime.None? || ParseTimestamp(origin.actualDateTime.value).Some?)
            && origin.plannedDateTime.Some? && ParseTimestamp(origin.plannedDateTime.value).None?
            ==> r == Failure(ValueError(origin.plannedDateTime.value))
  {
    if origin.actualDateTime.Some? then
      var departure :- Strptime(origin.actualDateTime.value);
      var plannedText :- Get(origin.plannedDateTime, "plannedDateTime");
      var planned :- Strptime(plannedText);
      Success(Timing(departure, departure.Utc() - planned.Utc()))
    else if origin.plannedDateTime.Some? then
      var departure :- Strptime(origin.plannedDateTime.value);
      Success(Timing(departure, 0))
    else
      Failure(Raised("No departure time!"))
  }

  /** The fields of one printed line, before the minutes left decide whether it is printed. */
  datatype Entry = Entry(trainType: string, track: string, departure: Instant, delayMinutes: int)

  /** The body of the `journey` loop up to `delay_minutes`, raising where the Python raises. */
  function JourneyEntry(trip: Trip): Result<Entry, Error> {
    var leg :- FirstLeg(trip);
    var origin :- Get(leg.origin, "origin");
    var track :- JourneyTrack(origin);
    var timing :- JourneyTiming(origin);
    var product :- Get(leg.product, "product");
    var trainType :- Get(product.categoryCode, "categoryCode");
    Success(Entry(trainType, track, timing.departure, MinutesOf(timing.delaySeconds)))
  }

  /**
   * A trip gives its line's fields exactly when it has a first leg with an
   * origin, a track, a departure time and a train type; otherwise the loop
   * raises the first of, in the order the code reads them: the `legs` error,
   * KeyError on `origin`, "No track!", the timing's error, KeyError on
   * `product`, KeyError on `categoryCode`.
   */
  lemma JourneyEntryCases(trip: Trip)
    ensures JourneyEntry(trip).Success? <==>
      && FirstLeg(trip).Success? && FirstLeg(trip).value.origin.Some?
      && JourneyTrack(FirstLeg(trip).value.origin.value).Success?
      && JourneyTiming(FirstLeg(trip).value.origin.value).Success?
      && FirstLeg(trip).value.product.Some? && FirstLeg(trip).value.product.value.categoryCode.Some?
    ensures FirstLeg(trip).Failure? ==> JourneyEntry(trip) == Failure(FirstLeg(trip).error)
    ensures FirstLeg(trip).Success? ==>
      var leg := FirstLeg(trip).value;
      && (leg.origin.None? ==> JourneyEntry(trip) == Failure(KeyError("origin")))
      && (leg.origin.Some? && leg.origin.value.actualTrack.None? && leg.origin.value.plannedTrack.None?
          ==> JourneyEntry(trip) == Failure(Raised("No track!")))
      && (leg.origin.Some? && JourneyTrack(leg.origin.value).Success?
          && JourneyTiming(leg.origin.value).Failure?
          ==> JourneyEntry(trip) == Failure(JourneyTiming(leg.origin.value).error))
      && (leg.origin.Some? && JourneyTrack(leg.origin.value).Success?
          && JourneyTiming(leg.origin.value).Success? && leg.product.None?
          ==> JourneyEntry(trip) == Failure(KeyError("product")))
      && (leg.origin.Some? && JourneyTrack(leg.origin.value).Success?
          && JourneyTiming(leg.origin.value).Success? && leg.product.Some?
          && leg.product.value.categoryCode.None?
          ==> JourneyEntry(trip) == Failure(KeyError("categoryCode")))
    ensures JourneyEntry(trip).Success? ==>
      var origin := FirstLeg(trip).value.origin.value;
      var timing := JourneyTiming(origin).value;
      JourneyEntry(trip).value == Entry(FirstLeg(trip).value.product.value.categoryCode.value,
                                        JourneyTrack(origin).value, timing.departure,
                                        MinutesOf(timing.delaySeconds))
  {
    if FirstLeg(trip).Success? && FirstLeg(trip).value.origin.Some? {
      JourneyTrackAgrees(FirstLeg(trip).value.origin.value);
    }
  }

  /**
   * Both iterations agree on every trip `journey` can print: same train
   * type and track, the printed time is the departure's actual time, and the
   * delay is `delay_minutes`.
   */
  lemma JourneyAgreesWithDepartures(trip: Trip)
    requires JourneyEntry(trip).Success?
    ensures TripToDeparture(trip).Success?
    ensures var e := JourneyEntry(trip).value;
            var d := TripToDeparture(trip).value;
            && e.trainType == d.trainType && e.track == d.platform
            && e.departure == d.actual && e.delayMinutes == DelayMinutes(d)
  {
    var leg := trip.legs.value[0];
    var origin := leg.origin.value;
    JourneyTrackAgrees(origin);
    if origin.actualDateTime.None? {
      MinutesOfWhole(0);
    }
  }

  /** `HH:MM`, followed by ` +N` only when the delay is positive. */
  function DepartureText(departure: Instant, delayMinutes: int): string {
    ClockText(departure.wall) + (if delayMinutes > 0 then " +" + IntToString(delayMinutes) else "")
  }

  /** A delay marker appears exactly for positive delays; early trains show only the time. */
  lemma DepartureTextMarker(departure: Instant, delayMinutes: int)
    ensures DepartureText(departure, delayMinutes) == ClockText(departure.wall) <==> delayMinutes <= 0
    ensures |DepartureText(departure, delayMinutes)| >= 5
            && DepartureText(departure, delayMinutes)[..5] == ClockText(departure.wall)
    ensures delayMinutes > 0 ==>
      var marker := DepartureText(departure, delayMinutes)[5..];
      |marker| > 2 && marker[..2] == " +" && IsIntText(marker[2..], delayMinutes)
  {
    if delayMinutes > 0 {
      var marker := " +" + IntToString(delayMinutes);
      assert DepartureText(departure, delayMinutes) == ClockText(departure.wall) + marker;
      assert DepartureText(departure, delayMinutes)[5..] == marker;
      assert marker[2..] == IntToString(delayMinutes);
      ParseIntToString(delayMinutes);
    }
  }

  /** The line `journey` prints for a trip. */
  function EntryLine(e: Entry, minutesLeft: int): string {
    LineHead(e) + IntToString(minutesLeft) + LineTail(e)
  }

  /** Minutes until the departure, "now" being read in the departure's own offset. */
  function MinutesLeft(e: Entry, nowUtc: int): int {
    MinutesOf(e.departure.Utc() - nowUtc)
  }

  /** One trip: its line, None when it is skipped, or the error it raises. */
  function JourneyLine(trip: Trip, nowUtc: int): (r: Result<Option<string>, Error>)
    ensures r.Failure? <==> JourneyEntry(trip).Failure?
    ensures r.Failure? ==> r.error == JourneyEntry(trip).error
  {
    var e :- JourneyEntry(trip);
    var left := MinutesLeft(e, nowUtc);
    if left < MinutesNeeded then Success(None) else Success(Some(EntryLine(e, left)))
  }

  /**
   * A trip that does not raise is skipped exactly when a full minute or more
   * has passed since its departure; less than a minute late, it still shows.
   */
  lemma SkippedIffDeparted(trip: Trip, nowUtc: int)
    requires JourneyEntry(trip).Success?
    ensures JourneyLine(trip, nowUtc).Success?
    ensures JourneyLine(trip, nowUtc).value.None?
            <==> JourneyEntry(trip).value.departure.Utc() - nowUtc <= -60
  {
    MinutesOfNegative(JourneyEntry(trip).value.departure.Utc() - nowUtc);
  }

  /** `head`, a number that reads back as `minutes`, then `tail`. */
  predicate ReadsAsLine(line: string, head: string, minutes: int, tail: string) {
    && StartsWith(line, head)
    && |head| < |line| - |tail|
    && line[|line| - |tail|..] == tail
    && IsIntText(line[|head|..|line| - |tail|], minutes)
  }

  /** What a line holds before its minutes: train type and track. */
  function LineHead(e: Entry): string {
    e.trainType + " p." + e.track + " in "
  }

  /** What a line holds after its minutes: the departure's time and delay marker in parentheses. */
  function LineTail(e: Entry): string {
    " min (" + DepartureText(e.departure, e.delayMinutes) + ")"
  }

  /**
   * A printed line is `{train_type} p.{track} in {minutes} min ({dep_string})`:
   * it starts with the first leg's train type and track, the number before
   * ` min (` reads back as the minutes left, which are not negative, and the
   * parentheses hold the departure's `HH:MM` and delay marker.
   */
  lemma PrintedLineShape(trip: Trip, nowUtc: int)
    requires JourneyLine(trip, nowUtc).Success? && JourneyLine(trip, nowUtc).value.Some?
    ensures var e := JourneyEntry(trip).value;
            && MinutesLeft(e, nowUtc) >= 0
            && e.trainType == trip.legs.value[0].product.value.categoryCode.value
            && ReadsAsLine(JourneyLine(trip, nowUtc).value.value, e.trainType + " p." + e.track + " in ",
                           MinutesLeft(e, nowUtc), " min (" + DepartureText(e.departure, e.delayMinutes) + ")")
  {
    LineOfEntry(trip, nowUtc);
    var e := JourneyEntry(trip).value;
    EntryLineParts(e, MinutesLeft(e, nowUtc));
    assert LineHead(e) == e.trainType + " p." + e.track + " in ";
    assert LineTail(e) == " min (" + DepartureText(e.departure, e.delayMinutes) + ")";
    EntryTrainType(trip);
  }

  /** Helper: a printed line comes from a trip whose entry exists, and is that entry's line. */
  lemma LineOfEntry(trip: Trip, nowUtc: int)
    requires JourneyLine(trip, nowUtc).Success? && JourneyLine(trip, nowUtc).value.Some?
    ensures JourneyEntry(trip).Success?
    ensures var e := JourneyEntry(trip).value;
            && MinutesLeft(e, nowUtc) >= MinutesNeeded
            && JourneyLine(trip, nowUtc).value.value == EntryLine(e, MinutesLeft(e, nowUtc))
  {
  }

  /** Helper: an entry's line is its head, its minutes and its tail. */
  lemma EntryLineParts(e: Entry, minutesLeft: int)
    ensures ReadsAsLine(EntryLine(e, minutesLeft), LineHead(e), minutesLeft, LineTail(e))
  {
    NumberBetween(LineHead(e), minutesLeft, LineTail(e));
  }

  /** Helper: a decimal number between two texts reads back. */
  lemma NumberBetween(head: string, n: int, tail: string)
    ensures ReadsAsLine(head + IntToString(n) + tail, head, n, tail)
  {
    Between(head, IntToString(n), tail);
    ParseIntToString(n);
  }

  /** Helper: the outer parts of a three-part concatenation are found by their lengths. */
  lemma Between(head: string, middle: string, tail: string)
    ensures var s := head + middle + tail;
            && s[..|head|] == head
            && s[|s| - |tail|..] == tail
            && s[|head|..|s| - |tail|] == middle
  {
  }

  /** Helper: the entry's train type is the first leg's category code. */
  lemma EntryTrainType(trip: Trip)
    requires JourneyEntry(trip).Success?
    ensures JourneyEntry(trip).value.trainType == trip.legs.value[0].product.value.categoryCode.value
  {
  }

  /** What the command printed, and the error that stopped it, if any. */
  datatype JourneyRun = JourneyRun(printed: seq<string>, error: Option<Error>)

  /** What one trip contributes: its line, None when skipped, or the error it raises. */
  type Outcome = Result<Option<string>, Error>

  /** The outcome of every trip, in trip order, "now" being fixed for the run. */
  function Outcomes(trips: seq<Trip>, nowUtc: int): (r: seq<Outcome>)
    ensures |r| == |trips|
    ensures forall i :: 0 <= i < |trips| ==> r[i] == JourneyLine(trips[i], nowUtc)
  {
    seq(|trips|, i requires 0 <= i < |trips| => JourneyLine(trips[i], nowUtc))
  }

  function OptionLines(line: Option<string>): seq<string> {
    match line
    case Some(l) => [l]
    case None => []
  }

  predicate NoneRaise(outcomes: seq<Outcome>) {
    forall i :: 0 <= i < |outcomes| ==> outcomes[i].Success?
  }

  /** The lines printed when no trip raises: the kept ones, in trip order. */
  function Shown(outcomes: seq<Outcome>): seq<string>
    requires NoneRaise(outcomes)
    decreases |outcomes|
  {
    if |outcomes| == 0 then []
    else Shown(outcomes[..|outcomes| - 1]) + OptionLines(outcomes[|outcomes| - 1].value)
  }

  /** No more lines are printed than there are trips, and every line is some trip's own line. */
  lemma {:induction false} ShownFromTrips(outcomes: seq<Outcome>)
    requires NoneRaise(outcomes)
    ensures |Shown(outcomes)| <= |outcomes|
    ensures forall line :: line in Shown(outcomes) ==>
      exists i :: 0 <= i < |outcomes| && outcomes[i] == Success(Some(line))
    decreases |outcomes|
  {
    if |outcomes| > 0 {
      var front := outcomes[..|outcomes| - 1];
      ShownFromTrips(front);
      forall line | line in Shown(outcomes)
        ensures exists i :: 0 <= i < |outcomes| && outcomes[i] == Success(Some(line))
      {
        if line in Shown(front) {
          var i :| 0 <= i < |front| && front[i] == Success(Some(line));
          assert outcomes[i] == front[i];
        } else {
          assert outcomes[|outcomes| - 1] == Success(Some(line));
        }
      }
    }
  }

  /** Every trip that is not skipped shows, in order: with no skips, one line per trip. */
  lemma {:induction false} ShownAllKept(outcomes: seq<Outcome>)
    requires forall i :: 0 <= i < |outcomes| ==> outcomes[i].Success? && outcomes[i].value.Some?
    ensures |Shown(outcomes)| == |outcomes|
    ensures forall i :: 0 <= i < |outcomes| ==> Shown(outcomes)[i] == outcomes[i].value.value
    decreases |outcomes|
  {
    if |outcomes| > 0 {
      ShownAllKept(outcomes[..|outcomes| - 1]);
    }
  }

  /**
   * The `for trip in trips` loop over the trips' outcomes: lines are printed
   * as trips are read, so a trip that raises leaves the lines of the trips
   * before it printed.
   */
  method PrintTrips(outcomes: seq<Outcome>) returns (run: JourneyRun)
    ensures run.error.None? <==> NoneRaise(outcomes)
    ensures run.error.None? ==> run.printed == Shown(outcomes)
    ensures run.error.Some? ==>
      exists k :: 0 <= k < |outcomes|
        && outcomes[k] == Failure(run.error.value)
        && NoneRaise(outcomes[..k])
        && run.printed == Shown(outcomes[..k])
  {
    var printed: seq<string> := [];
    var i := 0;
    while i < |outcomes|
      invariant 0 <= i <= |outcomes|
      invariant NoneRaise(outcomes[..i])
      invariant printed == Shown(outcomes[..i])
    {
      var line := outcomes[i];
      if line.Failure? {
        return JourneyRun(printed, Some(line.error));
      }
      ghost var next := outcomes[..i + 1];
      assert next[..i] == outcomes[..i] && next[i] == line;
      printed := printed + OptionLines(line.value);
      i := i + 1;
    }
    assert outcomes[..i] == outcomes;
    return JourneyRun(printed, None);
  }

  /** The first line `journey` prints. */
  function Header(start: string, end: string): string {
    "Journeys from " + start + " -> " + end
  }

  /**
   * `journey(start, end, token)` with the station mapping, the trip service
   * and the current instant passed in. Both lookups come before the header
   * and the request; the request carries no date-time.
   */
  method RunJourney(mapping: map<string, string>, start: string, end: string, token: string,
                    service: TripService, nowUtc: int) returns (run: JourneyRun)
    ensures start !in mapping ==> run == JourneyRun([], Some(KeyError(start)))
    ensures start in mapping && end !in mapping ==> run == JourneyRun([], Some(KeyError(end)))
    ensures start in mapping && end in mapping ==>
      && |run.printed| > 0 && run.printed[0] == Header(start, end)
      && var response := service(Utils.GetHeaders(token), Query(mapping[start], mapping[end], None));
      && (response.Failure? ==> run == JourneyRun([Header(start, end)], Some(response.error)))
      && (response.Success? && response.value.trips.None?
          ==> run == JourneyRun([Header(start, end)], Some(KeyError("trips"))))
      && (response.Success? && response.value.trips.Some? &&
          NoneRaise(Outcomes(response.value.trips.value, nowUtc))
          ==> run == JourneyRun([Header(start, end)] + Shown(Outcomes(response.value.trips.value, nowUtc)), None))
      && (response.Success? && response.value.trips.Some? &&
          !NoneRaise(Outcomes(response.value.trips.value, nowUtc))
          ==> var outcomes := Outcomes(response.value.trips.value, nowUtc);
              && run.error.Some?
              && exists k :: 0 <= k < |outcomes|
                   && outcomes[k] == Failure(run.error.value)
                   && NoneRaise(outcomes[..k])
                   && run.printed == [Header(start, end)] + Shown(outcomes[..k]))
  {
    var query := BuildQuery(mapping, start, end, None);
    if query.Failure? {
      return JourneyRun([], Some(query.error));
    }
    var header := Header(start, end);
    var response := service(Utils.GetHeaders(token), query.value);
    if response.Failure? {
      return JourneyRun([header], Some(response.error));
    }
    var trips := Get(response.value.trips, "trips");
    if trips.Failure? {
      return JourneyRun([header], Some(trips.error));
    }
    var rest := PrintTrips(Outcomes(trips.value, nowUtc));
    return JourneyRun([header] + rest.printed, rest.error);
  }
}

=== FILE: legacy_departure.dfy ===
/**
 * `nstimes/types/departure.py`, the older departure: the same value and
 * delay as `Departures` (an absent actual time is the planned one), but
 * minutes left are counted from "now" read in the departure's own offset,
 * and it renders itself as one line of text.
 */
module LegacyDepartures {
  import opened Wrappers
  import opened Text
  import opened Styles
  import opened DateTimes
  import opened Departures

  /**
   * `time_left_minutes`: `datetime.now(tz=actual.tzinfo)` is the same
   * absolute instant as `nowUtc`, shown in the departure's offset.
   */
  function TimeLeftAt(d: Departure, nowUtc: int): (m: int)
    ensures m == MinutesOf(d.actual.Utc() - nowUtc)
  {
    var now := Instant(nowUtc + d.actual.offset, d.actual.offset);
    MinutesOf(d.actual.Utc() - now.Utc())
  }

  /**
   * The older "now" and the newer reference agree when the reference's wall
   * clock is "now" in the departure's offset, whatever offset it claims.
   */
  lemma TimeLeftAtAgreesWithReference(d: Departure, nowUtc: int, claimed: int)
    ensures TimeLeftAt(d, nowUtc) == TimeLeftMinutes(d, Instant(nowUtc + d.actual.offset, claimed))
  {
  }

  /** The marker after the time: nothing when the delay is 0, else `+N` in bold red. */
  function DelaySuffix(d: Departure): string {
    var delay := DelayMinutes(d);
    if delay == 0 then "" else Red("+" + IntToString(delay))
  }

  /** The marker is empty exactly when the delay is 0, and otherwise names the delay. */
  lemma DelaySuffixMeaning(d: Departure)
    ensures DelaySuffix(d) == "" <==> DelayMinutes(d) == 0
    ensures DelayMinutes(d) != 0 ==>
      && Unwrap(RedOpen, RedClose, DelaySuffix(d)).Some?
      && var inner := Unwrap(RedOpen, RedClose, DelaySuffix(d)).value;
      && |inner| > 1 && inner[0] == '+' && IsIntText(inner[1..], DelayMinutes(d))
  {
    var delay := DelayMinutes(d);
    if delay != 0 {
      ParseIntToString(delay);
      assert ("+" + IntToString(delay))[1..] == IntToString(delay);
    }
  }

  /** An early departure shows `+-N`: the plus sign is written before the minus of the number. */
  lemma DelaySuffixEarly(d: Departure)
    requires DelayMinutes(d) < 0
    ensures DelaySuffix(d) == "[bold red]+-" + NatToString(-DelayMinutes(d)) + "[/bold red]"
  {
    var digits := NatToString(-DelayMinutes(d));
    assert IntToString(DelayMinutes(d)) == "-" + digits;
    assert DelaySuffix(d) == Red("+" + ("-" + digits));
    assert Red("+" + ("-" + digits)) == RedOpen + ("+" + ("-" + digits)) + RedClose;
  }

  /** `__str__`: train type, platform, minutes left, the planned `HH:MM`, the delay marker. */
  function Describe(d: Departure, nowUtc: int): string {
    d.trainType + " p." + d.platform + " in " + IntToString(TimeLeftAt(d, nowUtc)) + " min ("
    + ClockText(d.planned.wall) + DelaySuffix(d) + ")"
  }

  /**
   * The line reads back: after its fixed head come the planned (not the
   * actual) hour and minute, then the delay marker and a closing parenthesis.
   */
  lemma DescribeReadsBack(d: Departure, nowUtc: int)
    ensures var head := d.trainType + " p." + d.platform + " in " + IntToString(TimeLeftAt(d, nowUtc)) + " min (";
            var r := Describe(d, nowUtc);
            && |r| == |head| + 5 + |DelaySuffix(d)| + 1
            && r[..|head|] == head
            && AllDigits(r[|head|..|head| + 2]) && ParseDigits(r[|head|..|head| + 2]) == HourOf(d.planned.wall)
            && r[|head| + 2] == ':'
            && AllDigits(r[|head| + 3..|head| + 5]) && ParseDigits(r[|head| + 3..|head| + 5]) == MinuteOf(d.planned.wall)
            && r[|head| + 5..|r| - 1] == DelaySuffix(d)
            && r[|r| - 1] == ')'
  {
    var head := d.trainType + " p." + d.platform + " in " + IntToString(TimeLeftAt(d, nowUtc)) + " min (";
    var clock := ClockText(d.planned.wall);
    var r := Describe(d, nowUtc);
    assert r == head + clock + DelaySuffix(d) + ")";
    assert r[|head|..|head| + 5] == clock;
    assert r[|head|..|head| + 2] == clock[..2];
    assert r[|head| + 3..|head| + 5] == clock[3..];
  }
}

=== FILE: printers.dfy ===
/**
 * `nstimes/printers.py`: the two printers that collect departures before
 * they are shown. A printer is a buffer, so it is modelled as a value and
 * every add returns the next buffer; Rich's rendering is not part of it.
 */
module Printers {
  import opened Wrappers
  import opened Errors
  import opened Text
  import opened Styles

  /**
   * What a printer reads from a departure: train type, platform, minutes
   * left, departure and arrival time as already-rendered text, and whether
   * it is cancelled.
   */
  datatype View = View(
    trainType: string,
    platform: string,
    minutesLeft: int,
    departureTime: string,
    arrivalTime: string,
    cancelled: bool)

  /** A table row: Train, Platform, Leaves in, Departure time, Arrival time. */
  type Row = seq<string>

  /**
   * `ConsolePrinter` holds a title and its lines; `ConsoleTablePrinter`
   * holds a Rich table, of which the title (None until set) and the rows
   * matter here.
   */
  datatype Printer =
    | Console(title: string, lines: seq<string>)
    | Table(tableTitle: Option<string>, rows: seq<Row>)

  /** `ConsolePrinter()`: empty title, no lines. */
  function NewConsole(): (p: Printer)
    ensures p.Console? && Title(p) == "" && p.lines == []
  {
    Console("", [])
  }

  /** `ConsoleTablePrinter()`: no title yet, so reading it gives `str(None)`; no rows. */
  function NewTable(): (p: Printer)
    ensures p.Table? && Title(p) == "None" && p.rows == []
  {
    Table(None, [])
  }

  /** The `title` a caller reads; the table printer's getter renders the table's title with `str`. */
  function Title(p: Printer): string {
    match p
    case Console(title, _) => title
    case Table(tableTitle, _) =>
      match tableTitle
      case None => "None"
      case Some(t) => t
  }

  /** Assigning `title`; the table printer's setter stores it on the table. */
  function SetTitle(p: Printer, value: string): (q: Printer)
    ensures Title(q) == value
    ensures q.Console? <==> p.Console?
    ensures q.Console? ==> q.lines == p.lines
    ensures q.Table? ==> q.rows == p.rows
  {
    match p
    case Console(_, lines) => Console(value, lines)
    case Table(_, rows) => Table(Some(value), rows)
  }

  /** Setting the title twice keeps only the second value. */
  lemma SetTitleTwice(p: Printer, a: string, b: string)
    ensures SetTitle(SetTitle(p, a), b) == SetTitle(p, b)
  {
  }

  /** The console line before the cancelled style: padded train type, platform and minutes, then the times. */
  function PlainLine(v: View): string {
    var times := " min " + v.departureTime + " -> " + v.arrivalTime;
    PadRight(v.trainType, 3) + " p." + PadLeft(v.platform, 3) + " in "
    + PadLeft(IntToString(v.minutesLeft), 2) + times
  }

  /** The line `ConsolePrinter.add_departure` appends. */
  function ConsoleLine(v: View): (line: string)
    ensures v.cancelled ==> Uncancel(line) == Some(PlainLine(v))
    ensures !v.cancelled ==> line == PlainLine(v)
  {
    UncancelCancelled(PlainLine(v));
    if v.cancelled then Cancelled(PlainLine(v)) else PlainLine(v)
  }

  /** A cancelled departure's line is exactly the cancelled style applied to the line it would otherwise have. */
  lemma CancelledConsoleLine(v: View)
    ensures ConsoleLine(v.(cancelled := true)) == Cancelled(ConsoleLine(v.(cancelled := false)))
  {
  }

  /** `s` right-aligned in a field of `width` or more: leading spaces, then `s` itself. */
  lemma PadLeftField(s: string, width: nat)
    ensures var f := PadLeft(s, width);
            && |f| == Max(|s|, width) && |f| >= width
            && (forall i :: 0 <= i < |f| - |s| ==> f[i] == ' ')
            && f[|f| - |s|..] == s
  {
  }

  /**
   * `line` is laid out as a console line: `t` left-justified in a field of
   * width `w`, ` p.`, `p` right-justified in a field of width `pw`, ` in `,
   * `digits` right-justified in a field of width `mw`, then `rest`. The
   * fields are at least as wide as their text, so nothing is cut off.
   */
  predicate ConsoleLayout(line: string, t: string, p: string, digits: string, w: nat, pw: nat, mw: nat, rest: string) {
    var at := w + 3 + pw + 4;
    && w >= |t| && pw >= |p| && mw >= |digits|
    && |line| == at + mw + |rest|
    && line[..|t|] == t && (forall i :: |t| <= i < w ==> line[i] == ' ')
    && line[w..w + 3] == " p."
    && (forall i :: w + 3 <= i < w + 3 + pw - |p| ==> line[i] == ' ')
    && line[w + 3 + pw - |p|..w + 3 + pw] == p
    && line[w + 3 + pw..at] == " in "
    && (forall i :: at <= i < at + mw - |digits| ==> line[i] == ' ')
    && line[at + mw - |digits|..at + mw] == digits
    && line[at + mw..] == rest
  }

  /**
   * The console line reads back: the train type in a field of at least 3
   * characters, the platform in one of at least 3, the minutes in one of at
   * least 2 and reading back as the minutes left, then ` min `, departure,
   * ` -> `, arrival.
   */
  lemma PlainLineLayout(v: View)
    ensures var digits := IntToString(v.minutesLeft);
            && ConsoleLayout(PlainLine(v), v.trainType, v.platform, digits,
                             Max(|v.trainType|, 3), Max(|v.platform|, 3), Max(|digits|, 2),
                             " min " + v.departureTime + " -> " + v.arrivalTime)
            && IsIntText(digits, v.minutesLeft)
  {
    var t := v.trainType;
    var p := v.platform;
    var digits := IntToString(v.minutesLeft);
    var rest := " min " + v.departureTime + " -> " + v.arrivalTime;
    var a, b, c := PadRight(t, 3), PadLeft(p, 3), PadLeft(digits, 2);
    PaddedLine(t, p, digits, a, b, c, rest, PlainLine(v));
    ParseIntToString(v.minutesLeft);
  }

  /** Where each field of a line of padded fields sits, the fields being given by what padding promises. */
  lemma PaddedLine(t: string, p: string, digits: string, a: string, b: string, c: string, rest: string, line: string)
    requires line == a + " p." + b + " in " + c + rest
    requires |a| >= |t| && a[..|t|] == t && forall i :: |t| <= i < |a| ==> a[i] == ' '
    requires |b| >= |p| && b[|b| - |p|..] == p && forall i :: 0 <= i < |b| - |p| ==> b[i] == ' '
    requires |c| >= |digits| && c[|c| - |digits|..] == digits && forall i :: 0 <= i < |c| - |digits| ==> c[i] == ' '
    ensures ConsoleLayout(line, t, p, digits, |a|, |b|, |c|, rest)
  {
    var w := |a|;
    var pw := |b|;
    var mw := |c|;
    var at := w + 3 + pw + 4;
    LineSlices(a, b, c, rest);
    assert line[..|t|] == line[..w][..|t|];
    assert line[w + 3 + pw - |p|..w + 3 + pw] == line[w + 3..w + 3 + pw][pw - |p|..];
    assert line[at + mw - |digits|..at + mw] == line[at..at + mw][mw - |digits|..];
    forall i | |t| <= i < w
      ensures line[i] == ' '
    {
      assert line[i] == line[..w][i];
    }
    forall i | w + 3 <= i < w + 3 + pw - |p|
      ensures line[i] == ' '
    {
      assert line[i] == line[w + 3..w + 3 + pw][i - (w + 3)];
    }
    forall i | at <= i < at + mw - |digits|
      ensures line[i] == ' '
    {
      assert line[i] == line[at..at + mw][i - at];
    }
  }

  /** Where each piece of a console line sits. */
  lemma LineSlices(a: string, b: string, c: string, rest: string)
    ensures var line := a + " p." + b + " in " + c + rest;
            var at := |a| + 3 + |b| + 4;
            && |line| == at + |c| + |rest|
            && line[..|a|] == a && line[|a|..|a| + 3] == " p."
            && line[|a| + 3..|a| + 3 + |b|] == b && line[|a| + 3 + |b|..at] == " in "
            && line[at..at + |c|] == c && line[at + |c|..] == rest
  {
  }

  /**
   * The row `ConsoleTablePrinter.add_departure` adds: five cells, all in the
   * cancelled style for a cancelled departure, otherwise with platform and
   * minutes in cyan.
   */
  function TableRow(v: View): (row: Row)
    ensures |row| == 5
  {
    var minutes := IntToString(v.minutesLeft);
    if v.cancelled then
      [Cancelled(v.trainType), Cancelled(v.platform), Cancelled(minutes + " min"),
       Cancelled(v.departureTime), Cancelled(v.arrivalTime)]
    else
      [v.trainType, Cyan(v.platform), Cyan(minutes) + " min", v.departureTime, v.arrivalTime]
  }

  /** The plain texts of a row: what a reader sees once the markup is gone. */
  function PlainCells(v: View): (cells: seq<string>)
    ensures |cells| == 5
  {
    [v.trainType, v.platform, IntToString(v.minutesLeft) + " min", v.departureTime, v.arrivalTime]
  }

  /**
   * A cancelled row is the cancelled style on every plain cell, and each
   * cell reads back. An ordinary row keeps train type and times as they
   * are, and the platform and the minutes read back from their cyan markup;
   * the minutes cell ends in ` min`.
   */
  lemma TableRowReadsBack(v: View)
    ensures v.cancelled ==>
      forall i :: 0 <= i < 5 ==>
        TableRow(v)[i] == Cancelled(PlainCells(v)[i]) && Uncancel(TableRow(v)[i]) == Some(PlainCells(v)[i])
    ensures !v.cancelled ==>
      var row := TableRow(v);
      && row[0] == v.trainType && row[3] == v.departureTime && row[4] == v.arrivalTime
      && Unwrap(CyanOpen, CyanClose, row[1]) == Some(v.platform)
      && |row[2]| > 4 && row[2][|row[2]| - 4..] == " min"
      && Unwrap(CyanOpen, CyanClose, row[2][..|row[2]| - 4]).Some?
      && IsIntText(Unwrap(CyanOpen, CyanClose, row[2][..|row[2]| - 4]).value, v.minutesLeft)
  {
    var cells := PlainCells(v);
    if v.cancelled {
      forall i | 0 <= i < 5
        ensures Uncancel(Cancelled(cells[i])) == Some(cells[i])
      {
        UncancelCancelled(cells[i]);
      }
    } else {
      var styled := Cyan(IntToString(v.minutesLeft));
      assert TableRow(v)[2] == styled + " min";
      assert (styled + " min")[..|styled|] == styled;
      StyledIntReadsBack(v.minutesLeft);
    }
  }

  /** `add_departure`: one more line or row at the end; the title and the earlier entries are unchanged. */
  function AddDeparture(p: Printer, v: View): (q: Printer)
    ensures q.Console? <==> p.Console?
    ensures Title(q) == Title(p)
    ensures q.Console? ==> q.lines == p.lines + [ConsoleLine(v)]
    ensures q.Table? ==> q.rows == p.rows + [TableRow(v)]
  {
    match p
    case Console(title, lines) => Console(title, lines + [ConsoleLine(v)])
    case Table(tableTitle, rows) => Table(tableTitle, rows + [TableRow(v)])
  }

  /** Adding the views one after another, first to last. */
  function AddAll(p: Printer, views: seq<View>): Printer
    decreases |views|
  {
    if |views| == 0 then p else AddAll(AddDeparture(p, views[0]), views[1..])
  }

  /**
   * After adding a sequence of departures the printer holds the earlier
   * entries followed by one entry per departure, in insertion order, and
   * keeps its title.
   */
  lemma {:induction false} AddAllAppends(p: Printer, views: seq<View>)
    ensures var q := AddAll(p, views);
            && (q.Console? <==> p.Console?) && Title(q) == Title(p)
            && (q.Console? ==>
                  && |q.lines| == |p.lines| + |views|
                  && q.lines[..|p.lines|] == p.lines
                  && forall i :: 0 <= i < |views| ==> q.lines[|p.lines| + i] == ConsoleLine(views[i]))
            && (q.Table? ==>
                  && |q.rows| == |p.rows| + |views|
                  && q.rows[..|p.rows|] == p.rows
                  && forall i :: 0 <= i < |views| ==> q.rows[|p.rows| + i] == TableRow(views[i]))
    decreases |views|
  {
    match p
    case Console(title, lines) =>
      ConsoleAddAll(title, lines, views);
      MapAt(ConsoleLine, views);
    case Table(tableTitle, rows) =>
      TableAddAll(tableTitle, rows, views);
      MapAt(TableRow, views);
  }

  /** `f` applied to each element, in order. */
  function Map<A, B>(f: A -> B, s: seq<A>): seq<B>
    decreases |s|
  {
    if |s| == 0 then [] else [f(s[0])] + Map(f, s[1..])
  }

  lemma {:induction false} MapAt<A, B>(f: A -> B, s: seq<A>)
    ensures |Map(f, s)| == |s|
    ensures forall i :: 0 <= i < |s| ==> Map(f, s)[i] == f(s[i])
    decreases |s|
  {
    if |s| > 0 {
      MapAt(f, s[1..]);
      forall i | 1 <= i < |s|
        ensures Map(f, s)[i] == f(s[i])
      {
        assert s[1..][i - 1] == s[i];
      }
    }
  }

  lemma {:induction false} ConsoleAddAll(title: string, lines: seq<string>, views: seq<View>)
    ensures AddAll(Console(title, lines), views) == Console(title, lines + Map(ConsoleLine, views))
    decreases |views|
  {
    if |views| == 0 {
      assert lines + [] == lines;
    } else {
      var first := ConsoleLine(views[0]);
      ConsoleAddAll(title, lines + [first], views[1..]);
      assert lines + [first] + Map(ConsoleLine, views[1..]) == lines + ([first] + Map(ConsoleLine, views[1..]));
    }
  }

  lemma {:induction false} TableAddAll(tableTitle: Option<string>, rows: seq<Row>, views: seq<View>)
    ensures AddAll(Table(tableTitle, rows), views) == Table(tableTitle, rows + Map(TableRow, views))
    decreases |views|
  {
    if |views| == 0 {
      assert rows + [] == rows;
    } else {
      var first := TableRow(views[0]);
      TableAddAll(tableTitle, rows + [first], views[1..]);
      assert rows + [first] + Map(TableRow, views[1..]) == rows + ([first] + Map(TableRow, views[1..]));
    }
  }

  /**
   * `get_printer`: `ascii` gives an empty console printer, `table` an empty
   * table printer, and any other choice exits with code 1.
   */
  function GetPrinter(choice: string): (r: Result<Printer, Error>)
    ensures r.Success? <==> choice == "ascii" || choice == "table"
    ensures r.Failure? ==> r.error == Exit(1)
    ensures choice == "ascii" ==> r.Success? && r.value.Console? && r.value.lines == [] && Title(r.value) == ""
    ensures choice == "table" ==> r.Success? && r.value.Table? && r.value.rows == [] && Title(r.value) == "None"
  {
    if choice == "ascii" then Success(NewConsole())
    else if choice == "table" then Success(NewTable())
    else Failure(Exit(1))
  }
}

=== FILE: styles.dfy ===
/**
 * Console markup wrappers (`nstimes/styles.py`): each surrounds its text
 * with a fixed opening and closing tag. Integer arguments are rendered in
 * decimal first (`IntToString`), as an f-string does.
 */
module Styles {
  import opened Wrappers
  import opened Text

  const RedOpen := "[bold red]"
  const RedClose := "[/bold red]"
  const CyanOpen := "[bold cyan]"
  const CyanClose := "[/bold cyan]"
  const GreenOpen := "[bold green]"
  const GreenClose := "[/bold green]"
  const StrikeOpen := "[strike]"
  const StrikeClose := "[/strike]"

  /** `text` between an opening and a closing tag. */
  function Wrap(open: string, close: string, text: string): string {
    open + text + close
  }

  /** Strips the given tags from `s`, or None when `s` does not carry them. */
  function Unwrap(open: string, close: string, s: string): Option<string> {
    if |open| + |close| <= |s| && s[..|open|] == open && s[|s| - |close|..] == close
    then Some(s[|open|..|s| - |close|])
    else None
  }

  /** Unwrap undoes Wrap: the markup loses nothing of its text. */
  lemma UnwrapWrap(open: string, close: string, text: string)
    ensures Unwrap(open, close, Wrap(open, close, text)) == Some(text)
  {
    var s := Wrap(open, close, text);
    assert s[..|open|] == open;
    assert s[|s| - |close|..] == close;
    assert s[|open|..|s| - |close|] == text;
  }

  /** Wrap undoes Unwrap: a string that carries the tags is the wrapping of what they enclose. */
  lemma WrapUnwrap(open: string, close: string, s: string)
    requires Unwrap(open, close, s).Some?
    ensures Wrap(open, close, Unwrap(open, close, s).value) == s
  {
    var inner := s[|open|..|s| - |close|];
    assert s == s[..|open|] + inner + s[|s| - |close|..];
  }

  /** Each wrapper is injective: distinct texts get distinct markup. */
  lemma WrapInjective(open: string, close: string, a: string, b: string)
    requires Wrap(open, close, a) == Wrap(open, close, b)
    ensures a == b
  {
    UnwrapWrap(open, close, a);
    UnwrapWrap(open, close, b);
  }

  function Red(text: string): (r: string)
    ensures |r| == |text| + 21
    ensures Unwrap(RedOpen, RedClose, r) == Some(text)
  {
    UnwrapWrap(RedOpen, RedClose, text);
    Wrap(RedOpen, RedClose, text)
  }

  function Cyan(text: string): (r: string)
    ensures |r| == |text| + 23
    ensures Unwrap(CyanOpen, CyanClose, r) == Some(text)
  {
    UnwrapWrap(CyanOpen, CyanClose, text);
    Wrap(CyanOpen, CyanClose, text)
  }

  function Green(text: string): (r: string)
    ensures |r| == |text| + 25
    ensures Unwrap(GreenOpen, GreenClose, r) == Some(text)
  {
    UnwrapWrap(GreenOpen, GreenClose, text);
    Wrap(GreenOpen, GreenClose, text)
  }

  function Strike(text: string): (r: string)
    ensures |r| == |text| + 17
    ensures Unwrap(StrikeOpen, StrikeClose, r) == Some(text)
  {
    UnwrapWrap(StrikeOpen, StrikeClose, text);
    Wrap(StrikeOpen, StrikeClose, text)
  }

  /** The cancelled style: struck through, inside red. */
  function Cancelled(text: string): (r: string)
    ensures r == "[bold red][strike]" + text + "[/strike][/bold red]"
    ensures |r| == |text| + 38
  {
    assert Red(Strike(text)) == RedOpen + (StrikeOpen + text + StrikeClose) + RedClose;
    Red(Strike(text))
  }

  /** Strips the cancelled markup, red first and then strike, or None when it is absent. */
  function Uncancel(s: string): Option<string> {
    match Unwrap(RedOpen, RedClose, s)
    case None => None
    case Some(inner) => Unwrap(StrikeOpen, StrikeClose, inner)
  }

  /** The text of a cancelled entry is recovered by stripping red, then strike. */
  lemma UncancelCancelled(text: string)
    ensures Unwrap(RedOpen, RedClose, Cancelled(text)) == Some(Strike(text))
    ensures Unwrap(StrikeOpen, StrikeClose, Strike(text)) == Some(text)
    ensures Uncancel(Cancelled(text)) == Some(text)
  {
  }

  /** An integer passed to a wrapper is rendered in decimal, and reads back as itself. */
  lemma StyledIntReadsBack(n: int)
    ensures Unwrap(CyanOpen, CyanClose, Cyan(IntToString(n))).Some?
    ensures IsIntText(Unwrap(CyanOpen, CyanClose, Cyan(IntToString(n))).value, n)
  {
    ParseIntToString(n);
  }
}

=== FILE: text.dfy ===
/**
 * Character-level helpers shared by the model: decimal digits, Python's
 * `str(int)` and `int(str)`, `str.ljust`/`str.rjust`, `str.startswith`
 * and `str.split`/`str.join` on a one-character separator.
 */
module Text {
  import opened Wrappers

  predicate IsDigit(c: char) {
    '0' <= c <= '9'
  }

  predicate AllDigits(s: string) {
    forall i :: 0 <= i < |s| ==> IsDigit(s[i])
  }

  /** `str.isdigit()` on ASCII text: non-empty and made of digits only. */
  predicate IsDigitString(s: string) {
    |s| > 0 && AllDigits(s)
  }

  function DigitValue(c: char): nat
    requires IsDigit(c)
  {
    c as int - '0' as int
  }

  function DigitChar(n: nat): (c: char)
    requires n < 10
    ensures IsDigit(c) && DigitValue(c) == n
  {
    ('0' as int + n) as char
  }

  lemma DigitCharOfValue(c: char)
    requires IsDigit(c)
    ensures DigitChar(DigitValue(c)) == c
  {
  }

  /** The value of a string of decimal digits; leading zeros add nothing. */
  function ParseDigits(s: string): nat
    requires AllDigits(s)
    decreases |s|
  {
    if |s| == 0 then 0 else 10 * ParseDigits(s[..|s| - 1]) + DigitValue(s[|s| - 1])
  }

  /** Python's `str(n)` for a non-negative integer: decimal, no leading zero. */
  function NatToString(n: nat): (r: string)
    ensures IsDigitString(r)
    ensures n > 0 ==> r[0] != '0'
    ensures n < 10 <==> |r| == 1
  {
    if n < 10 then [DigitChar(n)] else NatToString(n / 10) + [DigitChar(n % 10)]
  }

  /** Reading a rendered number back gives the number. */
  lemma {:induction false} ParseNatToString(n: nat)
    ensures ParseDigits(NatToString(n)) == n
  {
    if n >= 10 {
      var p := NatToString(n / 10);
      ParseNatToString(n / 10);
      assert (p + [DigitChar(n % 10)])[..|p|] == p;
    }
  }

  /** A digit string that starts with a non-zero digit has a non-zero value. */
  lemma {:induction false} ParseDigitsPositive(s: string)
    requires IsDigitString(s) && s[0] != '0'
    ensures ParseDigits(s) > 0
  {
    if |s| > 1 {
      var p := s[..|s| - 1];
      assert p[0] == s[0];
      ParseDigitsPositive(p);
    }
  }

  /** A digit string is the rendering of its own value exactly when it has no leading zero. */
  lemma {:induction false} NatToStringOfParse(s: string)
    requires IsDigitString(s) && (|s| == 1 || s[0] != '0')
    ensures NatToString(ParseDigits(s)) == s
  {
    if |s| == 1 {
      DigitCharOfValue(s[0]);
    } else {
      var p := s[..|s| - 1];
      assert p[0] == s[0];
      ParseDigitsPositive(p);
      NatToStringOfParse(p);
      DigitCharOfValue(s[|s| - 1]);
      var n := ParseDigits(s);
      assert n / 10 == ParseDigits(p) && n % 10 == DigitValue(s[|s| - 1]);
      assert s == p + [s[|s| - 1]];
    }
  }

  /**
   * How `str(i)` writes an integer: digits with no leading zero (`0` alone
   * for zero), or a minus sign before such digits of a non-zero value; never a `+`.
   */
  predicate CanonicalInt(s: string) {
    || (IsDigitString(s) && (s[0] == '0' ==> |s| == 1))
    || (|s| > 1 && s[0] == '-' && IsDigitString(s[1..]) && s[1] != '0')
  }

  /** `s` is exactly `str(i)`: written canonically and read back by `int(s)` as `i`. */
  predicate IsIntText(s: string, i: int) {
    CanonicalInt(s) && ParseInt(s) == Some(i)
  }

  /** Python's `str(i)`: a minus sign before the digits of a negative number. */
  function IntToString(i: int): (r: string)
    ensures |r| > 0 && CanonicalInt(r)
  {
    if i < 0 then
      var digits := NatToString(-i);
      assert ("-" + digits)[1..] == digits;
      "-" + digits
    else NatToString(i)
  }

  /** Rendering is the only canonical text of a number: every canonical text is `str` of its value. */
  lemma CanonicalIsRendering(s: string)
    requires CanonicalInt(s)
    ensures ParseInt(s).Some? && IntToString(ParseInt(s).value) == s
  {
    if s[0] == '-' {
      var digits := s[1..];
      assert digits[0] == s[1];
      ParseDigitsPositive(digits);
      NatToStringOfParse(digits);
      assert s == "-" + digits;
    } else {
      NatToStringOfParse(s);
    }
  }

  /** `str(i)` is the only text that is canonical and reads back as `i`. */
  lemma IsIntTextIffRendering(s: string, i: int)
    ensures IsIntText(s, i) <==> s == IntToString(i)
  {
    if IsIntText(s, i) {
      CanonicalIsRendering(s);
    }
    if s == IntToString(i) {
      ParseIntToString(i);
    }
  }

  /** Python's `int(s)` on an optional sign followed by ASCII digits. */
  function ParseInt(s: string): (r: Option<int>)
    ensures r.Some? ==> |s| > 0 && (IsDigitString(s) || IsDigitString(s[1..]))
  {
    if |s| > 0 && (s[0] == '-' || s[0] == '+') then
      if IsDigitString(s[1..]) then
        var magnitude: int := ParseDigits(s[1..]);
        Some(if s[0] == '-' then -magnitude else magnitude)
      else None
    else if IsDigitString(s) then Some(ParseDigits(s))
    else None
  }

  lemma ParseIntToString(i: int)
    ensures ParseInt(IntToString(i)) == Some(i)
  {
    var s := IntToString(i);
    if i < 0 {
      var digits := NatToString(-i);
      ParseNatToString(-i);
      assert s == "-" + digits;
      assert s[0] == '-' && s[1..] == digits;
      var magnitude: int := ParseDigits(digits);
      assert ParseInt(s) == Some(-magnitude);
    } else {
      ParseNatToString(i);
      assert IsDigit(s[0]);
      assert ParseInt(s) == Some(ParseDigits(s));
    }
  }

  /** Two decimal digits, zero-padded: `%02d`. */
  function Pad2(n: nat): (r: string)
    requires n < 100
    ensures |r| == 2 && AllDigits(r) && ParseDigits(r) == n
  {
    var r := [DigitChar(n / 10), DigitChar(n % 10)];
    assert r[..1] == [r[0]] && [r[0]][..0] == [];
    assert ParseDigits(r[..1]) == n / 10;
    r
  }

  /** Four decimal digits, zero-padded: `%04d`. */
  function Pad4(n: nat): (r: string)
    requires n < 10000
    ensures |r| == 4 && AllDigits(r) && ParseDigits(r) == n
  {
    ParseDigitsTwoMore(Pad2(n / 100), Pad2(n % 100));
    Pad2(n / 100) + Pad2(n % 100)
  }

  /** Appending two digits multiplies the value by 100 and adds theirs. */
  lemma ParseDigitsTwoMore(a: string, b: string)
    requires AllDigits(a) && |b| == 2 && AllDigits(b)
    ensures AllDigits(a + b) && ParseDigits(a + b) == 100 * ParseDigits(a) + ParseDigits(b)
  {
    assert a + b == (a + [b[0]]) + [b[1]];
    ParseDigitsOneMore(a, b[0]);
    ParseDigitsOneMore(a + [b[0]], b[1]);
    assert b == [b[0]] + [b[1]];
    ParseDigitsOneMore([], b[0]);
    assert [] + [b[0]] == [b[0]];
    ParseDigitsOneMore([b[0]], b[1]);
  }

  /** Appending one digit multiplies the value by 10 and adds the digit's. */
  lemma ParseDigitsOneMore(a: string, c: char)
    requires AllDigits(a) && IsDigit(c)
    ensures AllDigits(a + [c]) && ParseDigits(a + [c]) == 10 * ParseDigits(a) + DigitValue(c)
  {
    assert (a + [c])[..|a|] == a;
  }

  /** Every two-digit string is the zero-padded rendering of its value. */
  lemma Pad2OfParse(s: string)
    requires |s| == 2 && AllDigits(s)
    ensures ParseDigits(s) < 100 && Pad2(ParseDigits(s)) == s
  {
    assert s[..1] == [s[0]] && [s[0]][..0] == [];
    assert ParseDigits(s[..1]) == DigitValue(s[0]);
    DigitCharOfValue(s[0]);
    DigitCharOfValue(s[1]);
  }

  lemma DivMod100(x: nat, y: nat)
    requires y < 100
    ensures (100 * x + y) / 100 == x && (100 * x + y) % 100 == y
  {
    var n := 100 * x + y;
    var q, r := n / 100, n % 100;
    assert n == 100 * q + r && 0 <= r < 100;
    assert 100 * (x - q) == r - y;
  }

  /** Every four-digit string is the zero-padded rendering of its value. */
  lemma Pad4OfParse(s: string)
    requires |s| == 4 && AllDigits(s)
    ensures ParseDigits(s) < 10000 && Pad4(ParseDigits(s)) == s
  {
    var hi, lo := s[..2], s[2..];
    assert s == hi + lo;
    ParseDigitsTwoMore(hi, lo);
    Pad2OfParse(hi);
    Pad2OfParse(lo);
    var x, y := ParseDigits(hi), ParseDigits(lo);
    DivMod100(x, y);
    assert Pad4(100 * x + y) == Pad2(x) + Pad2(y);
  }

  function Spaces(n: nat): (r: string)
    ensures |r| == n && forall i :: 0 <= i < n ==> r[i] == ' '
  {
    seq(n, _ => ' ')
  }

  function Max(a: int, b: int): int {
    if a < b then b else a
  }

  /** `str.ljust(width)`, the `:<w` format: pads on the right, never truncates. */
  function PadRight(s: string, width: nat): (r: string)
    ensures |r| == Max(|s|, width)
    ensures r[..|s|] == s
    ensures forall i :: |s| <= i < |r| ==> r[i] == ' '
  {
    if |s| < width then s + Spaces(width - |s|) else s
  }

  /** `str.rjust(width)`, the `:>w` format: pads on the left, never truncates. */
  function PadLeft(s: string, width: nat): (r: string)
    ensures |r| == Max(|s|, width)
    ensures r[|r| - |s|..] == s
    ensures forall i :: 0 <= i < |r| - |s| ==> r[i] == ' '
  {
    if |s| < width then Spaces(width - |s|) + s else s
  }

  /** `s.startswith(prefix)`. */
  predicate StartsWith(s: string, prefix: string) {
    |prefix| <= |s| && s[..|prefix|] == prefix
  }

  /** `s.split(sep)` for a one-character separator: every piece, empty ones included. */
  function Split(s: string, sep: char): (parts: seq<string>)
    ensures |parts| > 0
    ensures forall k :: 0 <= k < |parts| ==> sep !in parts[k]
    decreases |s|
  {
    if |s| == 0 then [""]
    else
      var rest := Split(s[1..], sep);
      if s[0] == sep then [""] + rest
      else [[s[0]] + rest[0]] + rest[1..]
  }

  /** `sep.join(parts)`. */
  function Join(parts: seq<string>, sep: char): string
    decreases |parts|
  {
    if |parts| == 0 then ""
    else if |parts| == 1 then parts[0]
    else parts[0] + [sep] + Join(parts[1..], sep)
  }

  /** Joining the pieces of a split gives back the text. */
  lemma {:induction false} JoinSplit(s: string, sep: char)
    ensures Join(Split(s, sep), sep) == s
  {
    if |s| > 0 {
      var rest := Split(s[1..], sep);
      JoinSplit(s[1..], sep);
      if s[0] == sep {
        assert ([""] + rest)[1..] == rest;
      } else {
        var parts := [[s[0]] + rest[0]] + rest[1..];
        if |rest| > 1 {
          assert parts[1..] == rest[1..];
          assert Join(rest, sep) == rest[0] + [sep] + Join(rest[1..], sep);
        }
      }
    }
  }

  /** Splitting a piece without separators, followed by more text, peels that piece off. */
  lemma {:induction false} SplitAfterPiece(a: string, sep: char, t: string)
    requires sep !in a
    ensures Split(a + [sep] + t, sep) == [a] + Split(t, sep)
    decreases |a|
  {
    if |a| == 0 {
      assert ([sep] + t)[1..] == t;
    } else {
      SplitAfterPiece(a[1..], sep, t);
      assert (a + [sep] + t)[1..] == a[1..] + [sep] + t;
      assert [a[0]] + a[1..] == a;
    }
  }

  /** A piece without separators splits into itself. */
  lemma {:induction false} SplitOfPiece(a: string, sep: char)
    requires sep !in a
    ensures Split(a, sep) == [a]
    decreases |a|
  {
    if |a| > 0 {
      SplitOfPiece(a[1..], sep);
      assert [a[0]] + a[1..] == a;
    }
  }

  /** Splitting a join of separator-free pieces gives back the pieces. */
  lemma {:induction false} SplitJoin(parts: seq<string>, sep: char)
    requires |parts| > 0
    requires forall k :: 0 <= k < |parts| ==> sep !in parts[k]
    ensures Split(Join(parts, sep), sep) == parts
    decreases |parts|
  {
    if |parts| == 1 {
      SplitOfPiece(parts[0], sep);
    } else {
      SplitJoin(parts[1..], sep);
      SplitAfterPiece(parts[0], sep, Join(parts[1..], sep));
    }
  }
}

=== FILE: trips.dfy ===
/**
 * The parts of the trip service's JSON answer that the code reads, with
 * every key that may be absent as an Option, and the station-code lookup
 * and query both callers build before the request.
 */
module Trips {
  import opened Wrappers
  import opened Errors

  /** A leg's `origin` object: timestamps as the service writes them, tracks as labels. */
  datatype Stop = Stop(
    plannedDateTime: Option<string>,
    actualDateTime: Option<string>,
    plannedTrack: Option<string>,
    actualTrack: Option<string>)

  /** A leg's `product` object. */
  datatype Product = Product(categoryCode: Option<string>)

  datatype Leg = Leg(product: Option<Product>, origin: Option<Stop>)

  datatype Trip = Trip(legs: Option<seq<Leg>>)

  /** The decoded response body: its `trips` array, when present. */
  datatype Body = Body(trips: Option<seq<Trip>>)

  /** The query parameters of a trips request. */
  datatype Query = Query(originUicCode: string, destinationUicCode: string, dateTime: Option<string>)

  /** `obj[key]` on a JSON object: the value, or KeyError. */
  function Get<T>(field: Option<T>, key: string): (r: Result<T, Error>)
    ensures field.Some? <==> r.Success?
    ensures r.Success? ==> r.value == field.value
    ensures r.Failure? ==> r.error == KeyError(key)
  {
    match field
    case Some(v) => Success(v)
    case None => Failure(KeyError(key))
  }

  /** `trip["legs"][0]`: the first leg; KeyError without `legs`, IndexError when it is empty. */
  function FirstLeg(trip: Trip): (r: Result<Leg, Error>)
    ensures r.Success? <==> trip.legs.Some? && |trip.legs.value| > 0
    ensures r.Success? ==> r.value == trip.legs.value[0]
    ensures trip.legs.None? ==> r == Failure(KeyError("legs"))
    ensures trip.legs.Some? && trip.legs.value == [] ==> r == Failure(IndexError)
  {
    var legs :- Get(trip.legs, "legs");
    if |legs| == 0 then Failure(IndexError) else Success(legs[0])
  }

  /** `mapping[name]`: the station's UIC code, or KeyError naming the station. */
  function StationCode(mapping: map<string, string>, name: string): (r: Result<string, Error>)
    ensures r.Success? <==> name in mapping
    ensures r.Success? ==> r.value == mapping[name]
    ensures r.Failure? ==> r.error == KeyError(name)
  {
    if name in mapping then Success(mapping[name]) else Failure(KeyError(name))
  }

  /** Both station lookups, start first; the query they give, with the date-time parameter as passed. */
  function BuildQuery(mapping: map<string, string>, start: string, end: string, dateTime: Option<string>)
    : (r: Result<Query, Error>)
    ensures r.Success? <==> start in mapping && end in mapping
    ensures start !in mapping ==> r == Failure(KeyError(start))
    ensures start in mapping && end !in mapping ==> r == Failure(KeyError(end))
    ensures r.Success? ==> r.value == Query(mapping[start], mapping[end], dateTime)
  {
    var origin :- StationCode(mapping, start);
    var destination :- StationCode(mapping, end);
    Success(Query(origin, destination, dateTime))
  }
}

=== FILE: utils.dfy ===
/**
 * `nstimes/utils.py`: the request headers and the conversion of a user's
 * `DD-MM-YYYY` date and `HH:MM` time into the timestamp the trips query takes.
 */
module Utils {
  import opened Wrappers
  import opened Errors
  import opened Text
  import opened DateTimes

  const CacheControlKey := "Cache-Control"
  const SubscriptionKey := "Ocp-Apim-Subscription-Key"

  /** The headers of every request to the trip service. */
  function GetHeaders(token: string): (h: map<string, string>)
    ensures h.Keys == {CacheControlKey, SubscriptionKey}
    ensures h[CacheControlKey] == "no-cache"
    ensures h[SubscriptionKey] == token
  {
    map[CacheControlKey := "no-cache", SubscriptionKey := token]
  }

  /** Python's `\s` below code point 128: the space, `\t` to `\r`, and the separators `\x1c` to `\x1f`. */
  predicate IsSpace(c: char) {
    c == ' ' || 9 as char <= c <= 13 as char || 28 as char <= c <= 31 as char
  }

  /**
   * The text `"%d-%m-%Y %H:%M"` matches, with two-digit day, month, hour
   * and minute: `DD-MM-YYYY`, a run of whitespace (the format's space),
   * `HH:MM`.
   */
  predicate DateTimeShape(c: string) {
    && |c| >= 16
    && AllDigits(c[0..2]) && c[2] == '-' && AllDigits(c[3..5]) && c[5] == '-'
    && AllDigits(c[6..10])
    && (forall i :: 10 <= i < |c| - 5 ==> IsSpace(c[i]))
    && AllDigits(c[|c| - 5..|c| - 3]) && c[|c| - 3] == ':' && AllDigits(c[|c| - 2..])
  }

  function DayField(c: string): nat requires DateTimeShape(c) { ParseDigits(c[0..2]) }
  function MonthField(c: string): nat requires DateTimeShape(c) { ParseDigits(c[3..5]) }
  function YearField(c: string): nat requires DateTimeShape(c) { ParseDigits(c[6..10]) }
  function HourField(c: string): nat requires DateTimeShape(c) { ParseDigits(c[|c| - 5..|c| - 3]) }
  function MinuteField(c: string): nat requires DateTimeShape(c) { ParseDigits(c[|c| - 2..]) }

  /** The fields name a real calendar date and a time of day. */
  predicate FieldsValid(c: string)
    requires DateTimeShape(c)
  {
    ValidDate(YearField(c), MonthField(c), DayField(c))
    && ValidTimeOfDay(HourField(c), MinuteField(c), 0)
  }

  /**
   * `datetime.strptime(f"{date} {time}", "%d-%m-%Y %H:%M").isoformat()`:
   * the same fields reordered as `YYYY-MM-DDTHH:MM:00`, with no UTC offset;
   * ValueError when the text does not match or names no real date or time.
   */
  function ConvertToRfc3339(time: string, date: string): (r: Result<string, Error>)
    ensures r.Failure? ==> r.error == ValueError(date + " " + time)
    ensures r.Success? ==> |r.value| == 19 && r.value[10] == 'T' && r.value[16..] == ":00"
    ensures r.Success? ==>
      var c := date + " " + time;
      DateTimeShape(c) &&
      r.value == c[6..10] + "-" + c[3..5] + "-" + c[0..2] + "T" + c[|c| - 5..] + ":00"
  {
    var c := date + " " + time;
    if DateTimeShape(c) && FieldsValid(c) then
      var iso := Pad4(YearField(c)) + "-" + Pad2(MonthField(c)) + "-" + Pad2(DayField(c))
        + "T" + Pad2(HourField(c)) + ":" + Pad2(MinuteField(c)) + ":00";
      IsoReusesFields(c);
      Success(iso)
    else
      Failure(ValueError(c))
  }

  /** Helper: every zero-padded field of the output is the input's own text. */
  lemma IsoReusesFields(c: string)
    requires DateTimeShape(c) && FieldsValid(c)
    ensures Pad4(YearField(c)) == c[6..10]
    ensures Pad2(MonthField(c)) == c[3..5] && Pad2(DayField(c)) == c[0..2]
    ensures Pad2(HourField(c)) + ":" + Pad2(MinuteField(c)) == c[|c| - 5..]
  {
    Pad4OfParse(c[6..10]);
    Pad2OfParse(c[3..5]);
    Pad2OfParse(c[0..2]);
    Pad2OfParse(c[|c| - 5..|c| - 3]);
    Pad2OfParse(c[|c| - 2..]);
    assert c[|c| - 5..] == c[|c| - 5..|c| - 3] + [c[|c| - 3]] + c[|c| - 2..];
  }

  /** The conversion succeeds exactly for well-formed text naming a real date and time. */
  lemma ConvertAcceptsExactlyValid(time: string, date: string)
    ensures ConvertToRfc3339(time, date).Success?
            <==> DateTimeShape(date + " " + time) && FieldsValid(date + " " + time)
  {
  }

  /** Reading year, month, day, hour and minute back from the output gives the input's fields. */
  lemma ConvertReadBack(time: string, date: string)
    requires ConvertToRfc3339(time, date).Success?
    ensures var r := ConvertToRfc3339(time, date).value;
            var c := date + " " + time;
            && AllDigits(r[0..4]) && AllDigits(r[5..7]) && AllDigits(r[8..10])
            && AllDigits(r[11..13]) && AllDigits(r[14..16])
            && ParseDigits(r[0..4]) == YearField(c) && ParseDigits(r[5..7]) == MonthField(c)
            && ParseDigits(r[8..10]) == DayField(c) && ParseDigits(r[11..13]) == HourField(c)
            && ParseDigits(r[14..16]) == MinuteField(c)
  {
    ReadBackOf(date + " " + time, ConvertToRfc3339(time, date).value);
  }

  /** Helper: the fields of a text laid out as `ConvertToRfc3339`'s result read back as the input's. */
  lemma ReadBackOf(c: string, r: string)
    requires DateTimeShape(c)
    requires r == c[6..10] + "-" + c[3..5] + "-" + c[0..2] + "T" + c[|c| - 5..] + ":00"
    ensures && AllDigits(r[0..4]) && AllDigits(r[5..7]) && AllDigits(r[8..10])
            && AllDigits(r[11..13]) && AllDigits(r[14..16])
            && ParseDigits(r[0..4]) == YearField(c) && ParseDigits(r[5..7]) == MonthField(c)
            && ParseDigits(r[8..10]) == DayField(c) && ParseDigits(r[11..13]) == HourField(c)
            && ParseDigits(r[14..16]) == MinuteField(c)
  {
    var h, mi := c[|c| - 5..|c| - 3], c[|c| - 2..];
    assert c[|c| - 5..] == h + ":" + mi;
    IsoSlices(c[6..10], c[3..5], c[0..2], h, mi);
  }

  /** Helper: where each field sits in `YYYY-MM-DDTHH:MM:00`. */
  lemma IsoSlices(y: string, mo: string, d: string, h: string, mi: string)
    requires |y| == 4 && |mo| == 2 && |d| == 2 && |h| == 2 && |mi| == 2
    ensures var r := y + "-" + mo + "-" + d + "T" + (h + ":" + mi) + ":00";
            r[0..4] == y && r[5..7] == mo && r[8..10] == d && r[11..13] == h && r[14..16] == mi
  {
  }

  /**
   * On two-digit input the conversion succeeds exactly when the fields name a
   * real date and time, and then gives the ISO rendering of the same fields.
   */
  lemma ConvertOfFields(y: nat, m: nat, d: nat, h: nat, mi: nat)
    requires y < 10000 && m < 100 && d < 100 && h < 100 && mi < 100
    ensures var r := ConvertToRfc3339(Pad2(h) + ":" + Pad2(mi), Pad2(d) + "-" + Pad2(m) + "-" + Pad4(y));
            && (r.Success? <==> ValidDate(y, m, d) && ValidTimeOfDay(h, mi, 0))
            && (r.Success? ==>
                  r.value == Pad4(y) + "-" + Pad2(m) + "-" + Pad2(d) + "T" + Pad2(h) + ":" + Pad2(mi) + ":00")
  {
    var date := Pad2(d) + "-" + Pad2(m) + "-" + Pad4(y);
    var time := Pad2(h) + ":" + Pad2(mi);
    var c := date + " " + time;
    assert c[0..2] == Pad2(d) && c[3..5] == Pad2(m) && c[6..10] == Pad4(y);
    assert c[|c| - 5..] == time;
    assert c[|c| - 5..|c| - 3] == Pad2(h) && c[|c| - 2..] == Pad2(mi);
    assert DateTimeShape(c);
  }

  /** 31 April is refused. */
  lemma ConvertRejectsThirtyFirstApril()
    ensures ConvertToRfc3339("10:00", "31-04-2023").Failure?
  {
    assert "10:00" == Pad2(10) + ":" + Pad2(0);
    assert "31-04-2023" == Pad2(31) + "-" + Pad2(4) + "-" + Pad4(2023);
    ConvertOfFields(2023, 4, 31, 10, 0);
  }

  /** 29 February is refused outside a leap year. */
  lemma ConvertRejectsLeapDayOfCommonYear()
    ensures ConvertToRfc3339("10:00", "29-02-2023").Failure?
  {
    assert "10:00" == Pad2(10) + ":" + Pad2(0);
    assert "29-02-2023" == Pad2(29) + "-" + Pad2(2) + "-" + Pad4(2023);
    assert !IsLeap(2023);
    ConvertOfFields(2023, 2, 29, 10, 0);
  }

  /** 29 February of a leap year is accepted. */
  lemma ConvertAcceptsLeapDay()
    ensures ConvertToRfc3339("10:00", "29-02-2024") == Success("2024-02-29T10:00:00")
  {
    LeapDayTexts();
    assert ValidDate(2024, 2, 29);
    ConvertOfFields(2024, 2, 29, 10, 0);
  }

  /** The zero-padded renderings of 29 February 2024, 10:00. */
  lemma LeapDayTexts()
    ensures Pad2(10) + ":" + Pad2(0) == "10:00"
    ensures Pad2(29) + "-" + Pad2(2) + "-" + Pad4(2024) == "29-02-2024"
    ensures Pad4(2024) + "-" + Pad2(2) + "-" + Pad2(29) + "T" + Pad2(10) + ":" + Pad2(0) + ":00"
            == "2024-02-29T10:00:00"
  {
    LeapDayFields();
    assert "10" + ":" + "00" == "10:00";
    assert "29" + "-" + "02" + "-" + "2024" == "29-02-2024";
    assert "2024" + "-" + "02" + "-" + "29" + "T" + "10" + ":" + "00" + ":00" == "2024-02-29T10:00:00";
  }

  lemma LeapDayFields()
    ensures Pad4(2024) == "2024"
    ensures Pad2(10) == "10" && Pad2(0) == "00" && Pad2(29) == "29" && Pad2(2) == "02"
  {
    assert Pad2(20) == "20" && Pad2(24) == "24";
    assert Pad4(2024) == Pad2(20) + Pad2(24);
  }

  /** Hour 24 and minute 60 are refused. */
  lemma ConvertRejectsImpossibleTimes()
    ensures ConvertToRfc3339("24:00", "10-10-2023").Failure?
    ensures ConvertToRfc3339("12:60", "10-10-2023").Failure?
  {
    ImpossibleTimeFields();
    assert "24:00" == Pad2(24) + ":" + Pad2(0);
    assert "12:60" == Pad2(12) + ":" + Pad2(60);
    assert "10-10-2023" == Pad2(10) + "-" + Pad2(10) + "-" + Pad4(2023);
    ConvertOfFields(2023, 10, 10, 24, 0);
    ConvertOfFields(2023, 10, 10, 12, 60);
  }

  lemma ImpossibleTimeFields()
    ensures Pad2(24) == "24" && Pad2(0) == "00" && Pad2(12) == "12" && Pad2(60) == "60"
    ensures Pad2(10) == "10" && Pad4(2023) == "2023"
  {
  }
}

=== FILE: wrappers.dfy ===
/** Failure-compatible wrappers, and the Python exceptions the model can raise. */
module Wrappers {

  /** A value that may be absent: a JSON key that may be missing, a parse that may fail. */
  datatype Option<+T> = None | Some(value: T) {

    /** The carried value, or `default` when there is none (Python's `d.get(k, default)`). */
    function GetOr(default: T): T {
      match this
      case Some(v) => v
      case None => default
    }
  }

  /** Either a value or the error that stopped the computation. */
  datatype Result<+T, +E> = Success(value: T) | Failure(error: E) {

    predicate IsFailure() {
      Failure?
    }

    function PropagateFailure<U>(): Result<U, E>
      requires Failure?
    {
      Failure(error)
    }

    function Extract(): T
      requires Success?
    {
      value
    }
  }
}

/** The exceptions and exits the modelled Python code can end in. */
module Errors {

  datatype Error =
    | KeyError(key: string)      // a dict lookup of an absent key
    | IndexError                 // indexing an empty list
    | ValueError(text: string)   // `int()` or `strptime` refusing its input text
    | Raised(message: string)    // a bare `raise Exception(message)`
    | Exit(code: int)            // `typer.Exit(code)` or `exit(code)`
}
